=== FILE: README.md ===
# Search-filter configuration of the NOMAD GUI, in Dafny

This project models the configuration logic behind the search interface of
the NOMAD web GUI, together with proofs about it:

- **Filter construction** (`Filter.js`). A filter record is built from an
  optional metainfo definition, an object of explicit parameters and an
  optional parent filter. Explicit parameters win over what the definition
  yields. Omitted flags get their defaults. `repeats` is resolved through
  the parent. A sub-filter's full label is prefixed with its parent's
  segment. Two configurations are refused: a truthy default on a non-global
  filter, and a query mode on a single-valued filter. The module also covers
  the enum options and the default widget that a definition yields.
- **Filter registry** (`FilterRegistry.js`). Registration is first-wins.
  Filters are kept in named groups, and sub-quantities are saved under
  dotted names that point back to their parent. The module also covers
  option-subset filters and their query setter, the query setter of the
  element search, the presets, and the static suggestion rules.
- **Filter summary** (`FilterSummary.js`). One chip is shown per value. A
  chip's delete button hands on a value, and deleting inside a nested
  section does the same per key. Ranges are formatted as text. An operator
  is shown between chips.
- **Text inputs** (`InputText.js`). These cover the Escape/Enter handling,
  input changes and blur of the generic input. For the quantity input they
  cover the submit rule and the rule that disables automatic suggestions.

Files:

- `wrappers.dfy`: `Option` and `Result`.
- `text.dfy`: JavaScript `trim`, `split` and `join` on one character, and
  the default ordering of `Array.prototype.sort`.
- `jsset.dfy`: a JavaScript `Set`, as a sequence in insertion order with no
  duplicates.
- `jsobject.dfy`: a plain object, as its entries in key order.
- `filter.dfy`, `registry.dfy`, `summary.dfy`, `inputtext.dfy`: the four
  parts above.

How JavaScript values are represented:

- `undefined` is `None`.
- A thrown error is a `Failure`, or a `Threw` outcome of a registration.
- Truthiness is written out where the source tests it: `Present` for
  optional strings and `Truthy` for default values.
- The metainfo table `searchQuantities` is the `quantities` map of an `Env`.
  The helpers whose source is not part of this model are function fields of
  that `Env`: `getDatatype`, `formatLabel` and `Unit(...).dimension()`.
- Serializers and deserializers are symbolic `Codec` values. A supplied one
  is recorded as `Supplied`. A derived one records the data type (and the
  dimension) it is derived from.
- Every handler of the text inputs is a pure function:
  - those of `InputText` return the callbacks they call, in order, and the
    new menu state;
  - those of `InputTextQuantity` map one `QuantityView` to the next. A view
    holds the component state, the quantity's filter value and the texts
    handed to `onChange`.

## Model

| member | source | states |
|---|---|---|
| Filters.NewFilter | gui/src/components/search/Filter.js:172-177 | Construction succeeds exactly when the parameters give neither a truthy default without `global: true` nor a query mode with `multiple: false`. `default: false` and an omitted query mode therefore never fail. The default check is reported first. Every constructed filter keeps the invariant that a truthy default implies global and a query mode implies multiple. |
| Filters.BuildFields | gui/src/components/search/Filter.js:135-170 | Given `multiple`, `exclusive`, `nested`, `global`, `scale` and query mode are kept. Omitted ones default to true, true, false, false and 'linear', and an omitted query mode is 'any' for a multi-valued filter and unset otherwise. A given dtype, description, unit, label, options, serializers, deserializer and widget win. Otherwise the description and unit come from the definition, the pretty serializer and deserializer are derived from the dtype (and dimension), the widget is `getWidgetConfig` of the dtype, and the label is the formatted definition name or filter name. Without explicit options, the options are the definition's enum values other than 'not processed', each labelled by itself, and there are none without an enum. Placeholder, value, aggregations and default are copied. The schema comes from the definition, custom serialization is set exactly when an exact serializer is given, and aggregatable and section follow the definition. `repeats` is resolved in order: explicit, then non-empty shape, then the definition's flag, then the parent's, then false. The parent is kept, and the full label is `LabelFull`, which is the label itself without a parent. |
| Filters.SubFilterLabelFull | gui/src/components/search/Filter.js:140-148 | For a sub-filter `name.sub` whose `sub` has no dot, the full label is the formatted last segment of `name`, a space, then the label. If the formatted segment is empty, the full label is just the label. |
| Filters.DottedSubFilterLabelFull | gui/src/components/search/Filter.js:140-148 | For a dotted sub-quantity `name.group.leaf`, with `leaf` free of dots (such as `cell.a`), the prefix is the formatted last segment of the sub's own `group` (`cell`), not a segment of the parent's name. If that is empty, the full label is just the label. Every dotted sub name has this form. |
| Filters.LabelFullWithoutParent | gui/src/components/search/Filter.js:148 | Without a parent, the full label is the label. |
| Filters.GetEnumOptions | gui/src/components/search/Filter.js:186-196 | `undefined` exactly when the quantity has no non-empty enum. Otherwise an object without duplicate keys, whose keys are exactly the enum values that are not excluded, each labelled with itself. The keys are listed in enum order, each value at its first occurrence. |
| Filters.EnumOptionsOf | gui/src/components/search/Filter.js:188-194 | The same, including the key order, for a definition given directly. |
| Filters.ConstructorOptions | gui/src/components/search/Filter.js:156 | Corrected option derivation. Explicit options win. Otherwise there are options exactly when the definition has a non-empty enum, and their keys are its values other than 'not processed'. |
| Filters.ConstructorOptionsByName | gui/src/components/search/Filter.js:156 | The corrected derivation from a name's definition equals `getEnumOptions(name)`. |
| Filters.OptionsAsWrittenMissEnum | gui/src/components/search/Filter.js:156 | For any table without an entry named "[object Object]", a definition with a non-empty enum and no explicit options gets no options as written. The corrected derivation gives it options. |
| Filters.GetWidgetConfig | gui/src/components/search/Filter.js:207-213 | Histogram exactly for Float, Int and Timestamp. Terms exactly for other types that are aggregatable. None exactly otherwise. |
| FilterRegistry.AddToGroup | gui/src/components/search/FilterRegistry.js:73-77 | With a group given, the name joins that group, created if needed, and no other group changes. Without a group, nothing changes. |
| FilterRegistry.SaveFilter | gui/src/components/search/FilterRegistry.js:72-84 | First-wins: a registered name returns the stored filter and changes no filter. A new name is stored exactly when construction succeeds. Its filter is built from a copy of the config renamed to `name`, and it goes last in key order. The group is updated even when construction throws. Other filters are untouched, and registry validity is preserved. |
| FilterRegistry.RegisterSubs | gui/src/components/search/FilterRegistry.js:92-97 | After success, every sub-quantity is registered as `name.sub`, and each newly stored one has the given parent. Earlier filters are untouched, and the only new names are the sub-quantities' names. |
| FilterRegistry.RegisterSubsSucceeds | gui/src/components/search/FilterRegistry.js:92-97 | The loop succeeds whenever the constructor accepts every sub-configuration. |
| FilterRegistry.RegisterSubsStores | gui/src/components/search/FilterRegistry.js:94-95 | After success, each new name `name.sub` holds the filter built from its definition and its first sub-configuration, renamed `name.sub`, with the given parent. |
| FilterRegistry.RegisterSubsGroups | gui/src/components/search/FilterRegistry.js:92-97 | With a group given, every sub-quantity `name.sub` joins it. Groups only grow, and every group other than the given one is unchanged. |
| FilterRegistry.RegisterFilter | gui/src/components/search/FilterRegistry.js:90-98 | Registration succeeds whenever the constructor accepts the configuration and every sub-configuration. A new name whose configuration is refused throws. After success, a new name holds the filter built from its definition and the configuration renamed `name`. The name is then registered and in its group, and every sub-quantity `name.sub` is registered. Each new sub-quantity's parent is the filter stored under `name`. Registered filters are never replaced, and other groups are unchanged. |
| FilterRegistry.RegisterFilterStoresSubs | gui/src/components/search/FilterRegistry.js:90-97 | After success, each new sub-quantity name holds the filter built from its definition and its first sub-configuration, with the filter stored under `name` as its parent. |
| FilterRegistry.RegisterFilterFirstWins | gui/src/components/search/FilterRegistry.js:81-82 | Registering an existing name again leaves all filters and their order unchanged. |
| FilterRegistry.KLineDensityFirstWins | gui/src/components/search/FilterRegistry.js:240-300 | After the first registration of `k_line_density`, the second (a labelled terms preset) has no effect. The stored filter keeps scale '1/2', stays single-valued and has no query mode. |
| FilterRegistry.RegisterFilterOptions | gui/src/components/search/FilterRegistry.js:103-131 | It never throws. A new name gets an Enum filter with `multiple`, not `exclusive`, `repeats` and query mode 'all'. The filter carries the given options, a terms aggregation on the target whose include list is the option keys, and the subset setter. |
| FilterRegistry.SubsetSet | gui/src/components/search/FilterRegistry.js:116-120 | `target:all` receives the union of the existing set under `target` (or the empty set) and the submitted values. An existing set is shared, so `target` holds the union too. The setter throws exactly when `target` holds a truthy non-set value and values are submitted. When it holds one and nothing is submitted, that value is copied to `target:all`. No other key changes. |
| FilterRegistry.ElementsSet | gui/src/components/search/FilterRegistry.js:508-516 | Exclusive mode with a non-empty set writes to `elements_exclusive` the sorted permutation of the set, joined by spaces. Exclusive mode with an empty set writes nothing. Otherwise the set is written unchanged to `results.material.elements`. The key the mode does not write keeps its value or absence, and no other key changes. |
| FilterRegistry.ElementsExclusiveRoundTrip | gui/src/components/search/FilterRegistry.js:511 | Splitting the exclusive string at spaces gives back a sorted permutation of the submitted symbols. |
| FilterRegistry.MaxLength | gui/src/components/search/FilterRegistry.js:610 | An upper bound on every option's length that is attained by one of them. It is -1 for no options. |
| FilterRegistry.MinLength | gui/src/components/search/FilterRegistry.js:610-611 | 1 exactly when no option is longer than two characters, else 2. |
| FilterRegistry.EnumSuggestions | gui/src/components/search/FilterRegistry.js:605-619 | One request for each listed quantity whose metainfo type is an enum. A request carries the enum's values, their minimum length and the quantity as category. The loop throws exactly when such an enum has no value list. |
| FilterRegistry.NameSuggestions | gui/src/components/search/FilterRegistry.js:624 | Exactly the listed names other than 'quantity name' and other than sections, in the order listed. It throws exactly when a listed name (not the sentinel) is unregistered. |
| FilterRegistry.StaticSuggestions | gui/src/components/search/FilterRegistry.js:598-630 | Corrected suggestions. The filters asked about are the given quantities, or every registered filter without them. It throws exactly when one of those is an enum without a value list, or when 'quantity name' is asked for and a listed name other than it is unregistered. The keys are exactly the enum quantities asked about, plus 'quantity name' when it is asked for. Each enum entry is the request for its values, with minimum length 1 exactly when no option exceeds two characters. The name entry lists exactly the requested registered non-section names other than 'quantity name', with minimum length 2. |
| FilterRegistry.StaticSuggestionsAsWritten | gui/src/components/search/FilterRegistry.js:598-630 | As written, a call without quantities always throws. A call with quantities gives exactly what the corrected `StaticSuggestions` gives. |
| FilterRegistry.StaticSuggestionsWithoutQuantities | gui/src/components/search/FilterRegistry.js:600-622 | Whenever the enum loop succeeds, a call without quantities throws as written but succeeds when corrected. |
| FilterRegistry.AcceptedConstructs | gui/src/components/search/Filter.js:172-177 | A configuration that passes both checks constructs under any name, definition and parent. |
| FilterRegistry.RegisteredConfigsAccepted | gui/src/components/search/FilterRegistry.js:147-162 | Every preset passes both constructor checks. So do the special configurations of visibility, combine, exclusive, elements, quantities, optimade and custom quantities. |
| FilterSummary.CreateChips | gui/src/components/search/FilterSummary.js:71-162 | A nil value gives no chips. Custom serialization gives one chip for the whole value, whose deletion clears it. A range gives at most one chip, and one exactly when a bound is set. Its text is `RangeText` of the bounds, each serialized with the units. A single value gives one chip `label=value`, serialized without the units. Every chip carries the locked flag, and the last chip has no operator after it. |
| FilterSummary.CreateChipsListing | gui/src/components/search/FilterSummary.js:101-121 | A set or array gives one chip per element in order, prefixed with the label for Boolean, Int and Float types. Deleting a set chip leaves exactly the other members, and deleting an array chip removes just that position. |
| FilterSummary.CreateChipsOps | gui/src/components/search/FilterSummary.js:83-162 | Only set and array chips hand on a value; every other chip clears the filter. Between two chips the operator is Or exactly for an unlocked 'any' filter, and And exactly for a locked or 'all' filter. |
| FilterSummary.RangeText | gui/src/components/search/FilterSummary.js:128 | There is a text exactly when some bound is set. |
| FilterSummary.RangeTextLower | gui/src/components/search/FilterSummary.js:130-131 | Lower bounds alone follow the label: `label >= a`, `label > a`, or `label >= a > b` with both. |
| FilterSummary.RangeTextUpper | gui/src/components/search/FilterSummary.js:132-133 | Upper bounds alone follow the label: `label <= b`, `label < b`, or `label <= a < b` with both. |
| FilterSummary.RangeTextBothSides | gui/src/components/search/FilterSummary.js:134-135 | With bounds on both sides, the lower ones come before the label and the upper ones after it. |
| FilterSummary.RangeTextEachSide | gui/src/components/search/FilterSummary.js:134-135 | One bound on each side reads `a <= label <= b`, `a <= label < b`, `a < label <= b` or `a < label < b`. |
| FilterSummary.WithoutIndex | gui/src/components/search/FilterSummary.js:114-115 | Splicing out position `i` keeps the elements before `i` and shifts the later ones down by one. |
| FilterSummary.SetDeleteIsIndexDelete | gui/src/components/search/FilterSummary.js:108-118 | On a set, deleting the member at position `i` removes exactly that position, so set and array deletion agree. |
| FilterSummary.SetChipDeleteRemovesOne | gui/src/components/search/FilterSummary.js:108-117 | The chip of member `i` hands on the set without exactly that member. |
| FilterSummary.DeleteInSection | gui/src/components/search/FilterSummary.js:181-188 | The key ends up with the new value, or is removed when the value is `undefined`. Every other key keeps its value, key order follows object semantics, and keys stay unique. |
| FilterSummary.SectionSetChipDelete | gui/src/components/search/FilterSummary.js:181-188 | Deleting a set chip inside a section leaves that entry without the member. Every other entry and the key order are unchanged. |
| FilterSummary.Section | gui/src/components/search/FilterSummary.js:78 | For any way of making an entry's chips, the section loop throws exactly when some entry's filter `quantity.key` is unregistered, and it reports the first such entry. An empty section gives nothing. |
| FilterSummary.SectionGroups | gui/src/components/search/FilterSummary.js:180-194 | Split at its separators, a section's pieces give back each entry's chips, in entry order. |
| FilterSummary.SectionPieces | gui/src/components/search/FilterSummary.js:177-194 | It throws exactly when an entry's filter `quantity.key` is unregistered, at the first such entry. Otherwise there is one And separator between consecutive entries, and split at the separators the pieces are exactly each entry's `createChips` chips, labelled with its key, in entry order. |
| InputText.KeyDown | gui/src/components/search/input/InputText.js:132-156 | Only Escape and Enter are consumed, and any other key changes nothing. Escape and Enter behave as `EscapeDown` and `EnterDown`. |
| InputText.EscapeDown | gui/src/components/search/input/InputText.js:135-143 | Escape closes the menu. On an open menu with items it does nothing else. Otherwise it clears the error exactly when `onError` is given and the text exactly when `onChange` is given, the error first, and emits nothing more. |
| InputText.EnterDown | gui/src/components/search/input/InputText.js:146-155 | Enter closes the menu and emits at most one callback: on an open menu with a highlighted option, `onSelect` with its trimmed label; otherwise `onAccept` with the trimmed value. |
| InputText.EnterHandsOnTrimmed | gui/src/components/search/input/InputText.js:148-150 | Whatever Enter hands on has no surrounding whitespace. |
| InputText.EscapeTwiceClears | gui/src/components/search/input/InputText.js:135-143 | A first Escape only closes a menu with items, and a second clears the input. |
| InputText.InputChange | gui/src/components/search/input/InputText.js:160-169 | The error is cleared first. With an event, 'reset' selects the value and any other reason changes it. Without an event, nothing else is emitted. |
| InputText.BlurEffects | gui/src/components/search/input/InputText.js:126-129 | `onBlur` first, then `onAccept` with the untrimmed value, each only if given. |
| InputText.TrimmedValue | gui/src/components/search/input/InputText.js:150 | `undefined` stays `undefined`, and text is trimmed. |
| InputText.SubmittedFilter | gui/src/components/search/input/InputText.js:333-336 | `{value}` when the filter is unset or single-valued, else the old set plus `value`. Members keep their places, and the result stays a set. |
| InputText.Submit | gui/src/components/search/input/InputText.js:326-341 | A whitespace-only value changes nothing. Otherwise the filter holds exactly the value plus, for a multiple filter, its old members. The text and the suggestion query are cleared, the menu is closed, and `onChange('')` is reported. |
| InputText.SubmitTwice | gui/src/components/search/input/InputText.js:333-336 | Submitting a value again leaves the filter as it was after the first submit. |
| InputText.QuantityKeyDown | gui/src/components/search/input/InputText.js:348-371 | Escape on an open menu with manual suggestions only closes it, and otherwise clears the text and query and keeps the filter. Enter is exactly `handleSubmit` of the highlighted value of an open menu, else of the typed text, and blank text changes nothing. Other keys change nothing. |
| InputText.QuantityEscapeTwice | gui/src/components/search/input/InputText.js:351-359 | Two Escapes on an open menu first close it, then clear the text and the suggestion query and leave the filter alone. |
| InputText.SuggestionsDisabled | gui/src/components/search/input/InputText.js:301-305 | Manual suggestions always disable automatic ones. Otherwise an explicit flag decides. Without a flag, suggestions are disabled unless the quantity declares them. |
| InputText.QuantityInputChange | gui/src/components/search/input/InputText.js:374-390 | The error is cleared. 'reset' submits the value: filter, text, menu and `onChange` reports are those of `handleSubmit`. Any other reason sets the text and keeps the filter. The suggestion query follows the value exactly when suggestions are enabled and the value is blank or the reason is 'input'. Otherwise it keeps its value or is cleared by the submit. |
| Text.Trim | gui/src/components/search/input/InputText.js:327 | The trimmed text neither starts nor ends with whitespace, and is no longer than the text. It is empty exactly when the text is all whitespace. |
| Text.TrimSlice | gui/src/components/search/input/InputText.js:327 | The trimmed text is a contiguous slice of the text, and everything cut before and after it is whitespace. |
| Text.Sort | gui/src/components/search/FilterRegistry.js:511 | A sorted permutation of the element symbols. |
| Text.SplitJoin | gui/src/components/search/FilterRegistry.js:511 | Space-free parts joined by spaces split back into the same parts. |
| JsSet.AddAll | gui/src/components/search/FilterRegistry.js:117-118 | The union, with the old members first, still without duplicates. |
| JsSet.Delete | gui/src/components/search/FilterSummary.js:111-112 | Exactly the members other than the deleted one. It stays without duplicates, and has one fewer member when the deleted value was a member. That the remaining members keep their order is stated by `FilterSummary.SetDeleteIsIndexDelete`. |
| JsObject.Put | gui/src/components/search/FilterSummary.js:186 | The key gets the value, and an existing key keeps its place while a new key goes last. Every other key keeps its value. |
| JsObject.Delete | gui/src/components/search/FilterSummary.js:184 | The key is gone. Every other key keeps its value and place. |
| JsObject.DeleteAll | gui/src/components/search/Filter.js:193 | Every listed key is gone, the rest are unchanged and keep their order, and keys stay unique. |

## Left out

- Rendering is not modelled: React, Material-UI styling, the Autocomplete widget, chip components, recoil state and hooks. Only the data and decision logic inside them is.
- `getDatatype`, `formatLabel`, `Unit(...).dimension()`, `getSerializer`, `getDeserializer` and `getSuggestions` are not part of this model. The first three are uninterpreted functions of `Env`. Serializers are symbolic `Codec` values. A suggestion request records the arguments `getSuggestions` receives.
- The JSON and URI encoding in the `custom_quantities` serializers is a foreign library call. Those serializers are opaque `Supplied` codecs, and the custom query setter, which ignores its input, is `IgnoreSetter`.
- The hundreds of individual `registerFilter` calls of the registry file are not replayed one by one. Instead, the presets and special configurations are shown to construct, and the one duplicate registration (`k_line_density`) is proved harmless.
- `elementData` is reduced to its element count, and `searchQuantities` is the abstract `quantities` map.
- Filters.GetRepeats: a `repeats` parameter of `null` is not modelled. Parameters are typed, so `repeats` is a boolean or absent. In the source, a `null` would recurse forever through the same parent.
- Filters.Build: it and `Filters.BuildFields` use the corrected option derivation `Filters.ConstructorOptions` (first row under "## Findings"), not the one as written. The code as written is stated separately by `Filters.OptionsAsWrittenMissEnum`: a definition with an enum and no explicit options gets no options.
- JsObject.Put: keys are kept in insertion order. JavaScript lists array-index keys (such as "0" or "12") first, in ascending numeric order. Section keys are quantity names, so that case does not arise in the modelled code, and it is not modelled.
- Text.NoLater: it compares Unicode scalar values (Dafny characters), while the default `sort` compares UTF-16 code units. The two orders differ only for characters outside the Basic Multilingual Plane, which element symbols do not contain.
- FilterRegistry.MaxLength: it counts Unicode scalar values, while JavaScript `length` counts UTF-16 code units. The two differ only for characters outside the Basic Multilingual Plane. For no options, -1 stands in for the -Infinity of `Math.max()`. Only the comparison with 2 reads the value, and both are below 2.
- FilterRegistry.Registry: a group is a `set` of names, so the insertion order of the source's `Set` of group members is not kept. No modelled operation reads that order.
- Filters.Build: `params.name` is a string here. In the source, an undefined name of a filter with a parent would make `name.split` throw.
- FilterSummary.CreateChips: the serializer is a total function on values, and a missing range bound is taken to display as missing. The serializer's behaviour on `undefined` is not part of this model.
- FilterSummary.CreateChips: `metaType` is taken from the caller's `ChipInfo`. The `Filter` record does not define that field, and whatever the search context adds to it is not part of this model.
- The locked-filter branches of the summary are not modelled beyond the `locked` flag of `CreateChips`. The locked values are always the empty object `{}`, so those branches never produce chips.
- The top-level summary loop (one chip group per quantity with chips) is presentation and is not modelled. Neither is the `undefined` entry that `concat` adds for a nil section value, which renders nothing.
- The highlight handlers only store the highlighted option. The model takes that option as an input (`highlight`, `highlighted`).
- The `setError('Invalid query')` branch of `handleSubmit` is dead code behind `const valid = true`, and is not modelled.
- The loading indicator and the clear button are presentation only.
- Filters.JsValue: a `default` is a boolean, an integer or a string. Fractional numbers, `NaN` and object defaults cannot be written. Every default the registry gives is a string or a boolean, so no modelled behaviour depends on the others.
- Integer widths do not matter here: the only numbers are lengths, sizes and layout constants.

## Findings

| source | as written | input that shows it | evidently intended | confidence | as-written member | corrected member |
|---|---|---|---|---|---|---|
| gui/src/components/search/Filter.js:156 | `getEnumOptions(def)` passes the definition object where a quantity name is expected. The table is then indexed with the key "[object Object]" (or "undefined"), so options are never derived from a definition's enum. | Any quantity registered without explicit options whose metainfo type is an Enum with values gets no options. For instance, `results.material.functional_type` (FilterRegistry.js:176) would get none if its metainfo declares an enum. The metainfo is not part of this model, so this instance is hypothetical. | Derive the options from the definition's own enum (the same result as `getEnumOptions(name)`), minus 'not processed'. The registry itself calls `getEnumOptions` with names (FilterRegistry.js:172, 191). | high (not executed) | Filters.OptionsAsWrittenMissEnum | Filters.ConstructorOptions |
| gui/src/components/search/FilterRegistry.js:622 | `quantities.has(...)` is called even when `quantities` is undefined. Lines 600-602 explicitly allow that case by falling back to every registered filter. | `getStaticSuggestions()` with no argument throws a TypeError after building the enum suggestions. | Without `quantities` there is no name suggestion, and the enum suggestions are returned. | medium (not executed) | FilterRegistry.StaticSuggestionsWithoutQuantities | FilterRegistry.StaticSuggestions |

=== FILE: filter.dfy ===
/** The `Filter` record of the search interface: how a searchable filter is
    derived from an optional metainfo definition, an object of explicit
    parameters and an optional parent filter, and the two configurations
    whose construction throws. Also the enum options and default widget a
    definition yields. */
module Filters {
  import opened Wrappers
  import opened Text
  import JsSet
  import JsObject

  /** The metainfo data types the filters tell apart; every other one is `Other`. */
  datatype DType = Int | Float | Timestamp | Enum | Boolean | Other(name: string)

  /** A loosely typed JavaScript value, as given for a filter's `default`.
      Numbers are integers here. */
  datatype JsValue = JBool(b: bool) | JNumber(n: int) | JString(s: string)

  /** JavaScript truthiness of a value that is not `undefined`. */
  predicate Truthy(v: JsValue) {
    match v
    case JBool(b) => b
    case JNumber(n) => n != 0
    case JString(s) => s != ""
  }

  /** JavaScript truthiness of an optional string: `undefined` and `""` are falsy. */
  predicate Present(s: Option<string>) {
    s.Some? && s.value != ""
  }

  /** `p || q` on optional strings. */
  function OrElse(p: Option<string>, q: Option<string>): Option<string> {
    if Present(p) then p else q
  }

  /** The `type` of a metainfo quantity: `type_kind` and `type_data`, which
      lists the values of an enum and is a plain string for other kinds. */
  datatype TypeData = NoData | Listed(items: seq<string>) | Scalar(text: string)
  datatype MetaType = MetaType(kind: string, data: TypeData)

  /** A metainfo definition, as far as filters read it. A missing `shape` is the empty one. */
  datatype Definition = Definition(
    name: Option<string>,
    description: Option<string>,
    unit: Option<string>,
    dimension: Option<string>,
    schema: Option<string>,
    shape: seq<string>,
    repeats: Option<bool>,
    nested: Option<bool>,
    aggregatable: Option<bool>,
    metaType: Option<MetaType>)

  /** What filters use from the rest of the program without defining it: the
      metainfo table `searchQuantities` and the helpers `getDatatype`,
      `formatLabel` and `new Unit(unit).dimension()`. */
  datatype Env = Env(
    quantities: map<string, Definition>,
    datatypeOf: Option<Definition> -> DType,
    formatLabel: string -> string,
    dimensionOf: string -> string)

  /** A serializer or deserializer: either one the parameters supply (named by
      an identifier) or the one `getSerializer`/`getDeserializer` derive. */
  datatype Codec =
    | Supplied(id: string)
    | Serializer(dtype: DType, pretty: bool)
    | Deserializer(dtype: DType, dimension: Option<string>)

  /** Widget layout; the same at every breakpoint from sm to xxl. */
  datatype Layout = Layout(w: nat, h: nat, minW: nat, minH: nat)

  datatype Widget = Widget(
    kind: string,
    scale: string,
    showInput: Option<bool>,
    autorange: Option<bool>,
    nbins: Option<nat>,
    layout: Layout)

  const HistogramWidget := Widget("histogram", "linear", Some(false), Some(false), Some(30), Layout(8, 3, 8, 3))
  const TermsWidget := Widget("terms", "linear", Some(false), None, None, Layout(6, 9, 6, 9))

  /** The terms aggregation of a filter: a fixed size (and optional include
      list), or the request builder of an option-subset filter, which queries
      `target` restricted to `keys`. */
  datatype TermsAgg =
    | TermsPreset(size: nat, includeList: Option<seq<string>>)
    | TermsSubset(target: string, keys: seq<string>)

  datatype Aggs = Aggs(terms: Option<TermsAgg>)

  /** The custom query setters of the registry, by name; their meaning is
      given in `FilterRegistry`. */
  datatype ValueSetter = SubsetSetter(target: string) | ElementsSetter | IgnoreSetter

  /** Filter options: option key to display label. */
  type Options = JsObject.Obj<string>

  /** The explicit parameters of a filter; `None` is an omitted key. */
  datatype Params = Params(
    name: string,
    dtype: Option<DType>,
    description: Option<string>,
    unit: Option<string>,
    labelText: Option<string>,
    placeholder: Option<string>,
    multiple: Option<bool>,
    exclusive: Option<bool>,
    queryMode: Option<string>,
    options: Option<Options>,
    default: Option<JsValue>,
    scale: Option<string>,
    value: Option<ValueSetter>,
    aggs: Option<Aggs>,
    nested: Option<bool>,
    repeats: Option<bool>,
    global: Option<bool>,
    serializerExact: Option<string>,
    serializerPretty: Option<string>,
    deserializer: Option<string>,
    widget: Option<Widget>)

  /** The empty parameter object `{}` with a name. */
  function NoParams(name: string): Params {
    Params(name, None, None, None, None, None, None, None, None, None, None,
           None, None, None, None, None, None, None, None, None, None)
  }

  datatype Filter = Filter(
    dtype: DType,
    description: Option<string>,
    unit: Option<string>,
    dimension: Option<string>,
    labelText: string,
    labelFull: string,
    parent: Option<Filter>,
    schema: Option<string>,
    placeholder: Option<string>,
    multiple: bool,
    exclusive: bool,
    queryMode: Option<string>,
    options: Option<Options>,
    default: Option<JsValue>,
    scale: string,
    value: Option<ValueSetter>,
    aggs: Option<Aggs>,
    nested: bool,
    repeats: bool,
    global: bool,
    section: bool,
    customSerialization: bool,
    serializerExact: Codec,
    serializerPretty: Codec,
    deserializer: Codec,
    aggregatable: bool,
    widget: Option<Widget>)

  /** The two errors the constructor throws. */
  datatype FilterError = DefaultOnNonGlobal | QueryModeOnSingle

  /** What every constructed filter satisfies: only a global filter has a
      (truthy) default, and only a multi-valued filter has a query mode. */
  predicate Invariant(f: Filter) {
    && (f.default.Some? && Truthy(f.default.value) ==> f.global)
    && (Present(f.queryMode) ==> f.multiple)
  }

  /** The parameters give a truthy default without declaring the filter global. */
  predicate DefaultRefused(p: Params) {
    p.default.Some? && Truthy(p.default.value) && p.global != Some(true)
  }

  /** The parameters give a query mode to a filter they declare single-valued. */
  predicate QueryModeRefused(p: Params) {
    Present(p.queryMode) && p.multiple == Some(false)
  }

  /** `getRepeats(def)`: a non-empty shape repeats; otherwise the definition's
      own flag; otherwise the (already resolved) flag of the parent; else false. */
  function GetRepeats(def: Option<Definition>, parent: Option<Filter>): bool {
    if def.Some? && |def.value.shape| > 0 then true
    else if def.Some? && def.value.repeats.Some? then def.value.repeats.value
    else if parent.Some? then parent.value.repeats
    else false
  }

  /** `labelFull`: a filter with a parent and a dotted name is prefixed with
      the formatted second-to-last segment of its name. */
  function LabelFull(env: Env, name: string, labelText: string, hasParent: bool): string {
    var sections := Split(name, '.');
    var parentName := if hasParent && |sections| > 1 then Some(env.formatLabel(sections[|sections| - 2])) else None;
    if Present(parentName) then parentName.value + " " + labelText else labelText
  }

  /** The full label of a sub-filter `name.sub`, `sub` without a dot, is
      prefixed with the last segment of its parent's name. */
  lemma {:induction false} SubFilterLabelFull(env: Env, name: string, sub: string, labelText: string)
    requires '.' !in sub
    ensures var segments := Split(name, '.');
            var prefix := env.formatLabel(segments[|segments| - 1]);
            LabelFull(env, name + "." + sub, labelText, true)
              == if prefix != "" then prefix + " " + labelText else labelText
  {
    SplitAround(name, sub, '.');
    SplitWithoutSeparator(sub, '.');
    assert name + "." + sub == name + ['.'] + sub;
  }

  /** A dotted sub-quantity `group.leaf` (such as `cell.a`) is prefixed with
      the formatted last segment of its own `group`, not with a segment of
      its parent's name. */
  lemma {:induction false} DottedSubFilterLabelFull(env: Env, name: string, group: string, leaf: string, labelText: string)
    requires '.' !in leaf
    ensures var segments := Split(group, '.');
            var prefix := env.formatLabel(segments[|segments| - 1]);
            LabelFull(env, name + "." + (group + "." + leaf), labelText, true)
              == if prefix != "" then prefix + " " + labelText else labelText
  {
    SubFilterLabelFull(env, name + "." + group, leaf, labelText);
    SplitAround(name, group, '.');
    assert name + "." + group == name + ['.'] + group;
    assert name + "." + (group + "." + leaf) == name + "." + group + "." + leaf;
  }

  /** A filter without a parent has its plain label as full label. */
  lemma LabelFullWithoutParent(env: Env, name: string, labelText: string)
    ensures LabelFull(env, name, labelText, false) == labelText
  {
  }

  /** The definition's enum values, when it has a non-empty list of them. */
  predicate HasEnumValues(def: Option<Definition>) {
    && def.Some? && def.value.metaType.Some?
    && def.value.metaType.value.data.Listed?
    && |def.value.metaType.value.data.items| > 0
  }

  function EnumValues(def: Option<Definition>): seq<string>
    requires HasEnumValues(def)
  {
    def.value.metaType.value.data.items
  }

  /** `opt[name] = {label: name}` for every name in turn. */
  function LabelEach(o: Options, names: seq<string>): (r: Options)
    ensures forall k :: JsObject.Get(r, k) == if k in names then Some(k) else JsObject.Get(o, k)
    ensures JsObject.WellFormed(o) ==> JsObject.WellFormed(r)
    ensures JsObject.Keys(r) == JsSet.AddAll(JsObject.Keys(o), names)
    decreases |names|
  {
    if |names| == 0 then o else LabelEach(JsObject.Put(o, names[0], names[0]), names[1..])
  }

  /** The options of a definition's enum: every value labelled by itself,
      minus the excluded ones; `None` without a non-empty enum. */
  function EnumOptionsOf(def: Option<Definition>, exclude: seq<string>): (r: Option<Options>)
    ensures r.None? <==> !HasEnumValues(def)
    ensures r.Some? ==> JsObject.WellFormed(r.value)
    ensures r.Some? ==> forall k :: JsObject.Get(r.value, k)
                          == if k in EnumValues(def) && k !in exclude then Some(k) else None
    // The keys are listed in enum order, each value once.
    ensures r.Some? ==> JsObject.Keys(r.value) == JsSet.Without(JsSet.FromSeq(EnumValues(def)), exclude)
  {
    if HasEnumValues(def) then
      Some(JsObject.DeleteAll(LabelEach([], EnumValues(def)), exclude))
    else None
  }

  const DefaultExclude: seq<string> := ["not processed"]

  /** The definition `searchQuantities` holds for a name, if any. */
  function Lookup(env: Env, quantity: string): Option<Definition> {
    if quantity in env.quantities then Some(env.quantities[quantity]) else None
  }

  /** `getEnumOptions(quantity, exclude)`: one entry labelled `v` per enum value
      `v` of the quantity, minus the excluded values; `undefined` when the
      quantity has no non-empty enum. */
  function GetEnumOptions(env: Env, quantity: string, exclude: seq<string>): (r: Option<Options>)
    ensures r.None? <==> !HasEnumValues(Lookup(env, quantity))
    ensures r.Some? ==> JsObject.WellFormed(r.value)
    ensures r.Some? ==> forall k :: JsObject.Get(r.value, k).Some? <==>
                          k in EnumValues(Lookup(env, quantity)) && k !in exclude
    ensures r.Some? ==> forall k :: JsObject.Get(r.value, k).Some? ==> JsObject.Get(r.value, k) == Some(k)
    ensures r.Some? ==> JsObject.Keys(r.value) == JsSet.Without(JsSet.FromSeq(EnumValues(Lookup(env, quantity))), exclude)
  {
    EnumOptionsOf(Lookup(env, quantity), exclude)
  }

  /** The property key JavaScript uses for an object value: a plain object
      converts to "[object Object]", `undefined` to "undefined". */
  function PropertyKey(def: Option<Definition>): string {
    if def.Some? then "[object Object]" else "undefined"
  }

  /** The options the constructor derives as written: `getEnumOptions(def)`
      is passed the definition itself, so the table is searched under the
      definition's string conversion instead of a quantity name. */
  function ConstructorOptionsAsWritten(env: Env, params: Params, def: Option<Definition>): Option<Options> {
    if params.options.Some? then params.options
    else GetEnumOptions(env, PropertyKey(def), DefaultExclude)
  }

  /** The options the constructor evidently means to derive: explicit options
      win, otherwise the definition's own enum, minus "not processed". */
  function ConstructorOptions(params: Params, def: Option<Definition>): (r: Option<Options>)
    ensures params.options.Some? ==> r == params.options
    ensures params.options.None? ==> (r.Some? <==> HasEnumValues(def))
    ensures params.options.None? && r.Some? ==>
              forall k :: JsObject.Get(r.value, k).Some? <==> k in EnumValues(def) && k != "not processed"
  {
    if params.options.Some? then params.options else EnumOptionsOf(def, DefaultExclude)
  }

  /** The corrected derivation agrees with looking the quantity up by its name. */
  lemma ConstructorOptionsByName(env: Env, params: Params, name: string)
    requires params.options.None?
    ensures ConstructorOptions(params, Lookup(env, name)) == GetEnumOptions(env, name, DefaultExclude)
  {
  }

  /** The constructor as written never finds a definition's enum: whenever the
      table has no quantity named "[object Object]", a definition that lists
      an enum still yields no options, where the corrected derivation yields them. */
  lemma OptionsAsWrittenMissEnum(env: Env, name: string, def: Definition)
    requires "[object Object]" !in env.quantities
    requires HasEnumValues(Some(def))
    ensures ConstructorOptionsAsWritten(env, NoParams(name), Some(def)) == None
    ensures ConstructorOptions(NoParams(name), Some(def)).Some?
  {
    assert Lookup(env, PropertyKey(Some(def))) == None;
  }

  /** `getWidgetConfig(dtype, aggregatable)`: a histogram for numbers and
      timestamps, else a terms widget when aggregatable, else none. */
  function GetWidgetConfig(dtype: DType, aggregatable: Option<bool>): (r: Option<Widget>)
    ensures r == Some(HistogramWidget) <==> dtype in {Float, Int, Timestamp}
    ensures r == Some(TermsWidget) <==> dtype !in {Float, Int, Timestamp} && aggregatable == Some(true)
    ensures r.None? <==> dtype !in {Float, Int, Timestamp} && aggregatable != Some(true)
  {
    if dtype == Float || dtype == Int || dtype == Timestamp then Some(HistogramWidget)
    else if aggregatable == Some(true) then Some(TermsWidget)
    else None
  }

  /** `def?.x` reads `undefined` for every `x` when there is no definition:
      the definition with every field missing. */
  const EmptyDefinition := Definition(None, None, None, None, None, [], None, None, None, None)

  function DefOrEmpty(def: Option<Definition>): Definition {
    def.GetOr(EmptyDefinition)
  }

  /** `params.label || formatLabel(def?.name || name)`. */
  function LabelOf(env: Env, d: Definition, params: Params): string {
    if Present(params.labelText) then params.labelText.value
    else env.formatLabel(if Present(d.name) then d.name.value else params.name)
  }

  /** `def?.unit && new Unit(def.unit).dimension()`: a missing or empty unit is
      passed through as it is. */
  function DimensionOf(env: Env, d: Definition): Option<string> {
    if Present(d.unit) then Some(env.dimensionOf(d.unit.value)) else d.unit
  }

  /** `params.queryMode || (multiple ? 'any' : undefined)`. */
  function QueryModeOf(params: Params, multiple: bool): Option<string> {
    if Present(params.queryMode) then params.queryMode
    else if multiple then Some("any") else None
  }

  function ScaleOf(params: Params): string {
    if Present(params.scale) then params.scale.value else "linear"
  }

  /** `params.repeats === undefined ? getRepeats(def) : params.repeats`. */
  function RepeatsOf(params: Params, def: Option<Definition>, parent: Option<Filter>): bool {
    if params.repeats.Some? then params.repeats.value else GetRepeats(def, parent)
  }

  /** A supplied serializer, else the derived one. */
  function CodecOf(supplied: Option<string>, derived: Codec): Codec {
    if supplied.Some? then Supplied(supplied.value) else derived
  }

  function WidgetOf(params: Params, dtype: DType, aggregatable: Option<bool>): Option<Widget> {
    if params.widget.Some? then params.widget else GetWidgetConfig(dtype, aggregatable)
  }

  /** The record `new Filter(def, params, parent)` assembles before its two checks. */
  function Build(env: Env, def: Option<Definition>, params: Params, parent: Option<Filter>): (f: Filter)
    // The two flags the checks read, and the parent, are taken from the parameters.
    ensures f.default == params.default
    ensures f.global == params.global.GetOr(false)
    ensures f.multiple == params.multiple.GetOr(true)
    ensures f.parent == parent
  {
    var d := DefOrEmpty(def);
    var dtype := if params.dtype.Some? then params.dtype.value else env.datatypeOf(def);
    var labelText := LabelOf(env, d, params);
    var multiple := params.multiple.GetOr(true);
    Filter(
      dtype := dtype,
      description := OrElse(params.description, d.description),
      unit := OrElse(params.unit, d.unit),
      dimension := DimensionOf(env, d),
      labelText := labelText,
      labelFull := LabelFull(env, params.name, labelText, parent.Some?),
      parent := parent,
      schema := d.schema,
      placeholder := params.placeholder,
      multiple := multiple,
      exclusive := params.exclusive.GetOr(true),
      queryMode := QueryModeOf(params, multiple),
      options := ConstructorOptions(params, def),
      default := params.default,
      scale := ScaleOf(params),
      value := params.value,
      aggs := params.aggs,
      nested := params.nested.GetOr(false),
      repeats := RepeatsOf(params, def, parent),
      global := params.global.GetOr(false),
      section := d.nested.Some?,
      customSerialization := params.serializerExact.Some?,
      serializerExact := CodecOf(params.serializerExact, Serializer(dtype, false)),
      serializerPretty := CodecOf(params.serializerPretty, Serializer(dtype, true)),
      deserializer := CodecOf(params.deserializer, Deserializer(dtype, d.dimension)),
      aggregatable := d.aggregatable == Some(true),
      widget := WidgetOf(params, dtype, d.aggregatable))
  }

  /** Every field of the assembled record: an explicit parameter wins, the
      definition supplies the rest, and fixed defaults fill what neither gives. */
  lemma BuildFields(env: Env, def: Option<Definition>, params: Params, parent: Option<Filter>, f: Filter)
    requires f == Build(env, def, params, parent)
    // Given flags are taken as they are; omitted ones take their defaults.
    ensures f.multiple == params.multiple.GetOr(true)
    ensures f.exclusive == params.exclusive.GetOr(true)
    ensures f.nested == params.nested.GetOr(false)
    ensures f.global == params.global.GetOr(false)
    ensures f.scale == if Present(params.scale) then params.scale.value else "linear"
    ensures Present(params.queryMode) ==> f.queryMode == params.queryMode
    // Without an explicit query mode a multi-valued filter queries 'any', a single-valued one none.
    ensures !Present(params.queryMode) ==> f.queryMode == if f.multiple then Some("any") else None
    // Explicit parameters win over what the definition yields.
    ensures params.dtype.Some? ==> f.dtype == params.dtype.value
    ensures params.dtype.None? ==> f.dtype == env.datatypeOf(def)
    ensures Present(params.description) ==> f.description == params.description
    ensures Present(params.unit) ==> f.unit == params.unit
    ensures Present(params.labelText) ==> f.labelText == params.labelText.value
    ensures params.options.Some? ==> f.options == params.options
    ensures params.serializerExact.Some? ==>
              f.customSerialization && f.serializerExact == Supplied(params.serializerExact.value)
    ensures params.serializerExact.None? ==>
              !f.customSerialization && f.serializerExact == Serializer(f.dtype, false)
    ensures params.serializerPretty.Some? ==> f.serializerPretty == Supplied(params.serializerPretty.value)
    ensures params.deserializer.Some? ==> f.deserializer == Supplied(params.deserializer.value)
    ensures params.widget.Some? ==> f.widget == params.widget
    ensures f.placeholder == params.placeholder && f.value == params.value && f.aggs == params.aggs
    // Otherwise the definition supplies them.
    ensures !Present(params.description) ==> f.description == DefOrEmpty(def).description
    ensures !Present(params.unit) ==> f.unit == DefOrEmpty(def).unit
    ensures params.serializerPretty.None? ==> f.serializerPretty == Serializer(f.dtype, true)
    ensures params.deserializer.None? ==> f.deserializer == Deserializer(f.dtype, DefOrEmpty(def).dimension)
    ensures params.widget.None? ==> f.widget == GetWidgetConfig(f.dtype, DefOrEmpty(def).aggregatable)
    ensures f.schema == DefOrEmpty(def).schema
    ensures !Present(params.labelText) ==>
              f.labelText == env.formatLabel(if def.Some? && Present(def.value.name) then def.value.name.value else params.name)
    ensures params.options.None? ==> (f.options.Some? <==> HasEnumValues(def))
    // Without explicit options, the definition's enum values other than 'not processed', each labelled by itself.
    ensures params.options.None? ==> f.options == EnumOptionsOf(def, DefaultExclude)
    ensures def.Some? && Present(def.value.unit) ==> f.dimension == Some(env.dimensionOf(def.value.unit.value))
    ensures !Present(DefOrEmpty(def).unit) ==> f.dimension == DefOrEmpty(def).unit
    ensures def.None? ==> f.dimension == None && f.schema == None && !f.aggregatable && !f.section
    ensures f.aggregatable <==> def.Some? && def.value.aggregatable == Some(true)
    // `repeats`: the explicit value, a non-empty shape, the definition's flag, the parent's flag, false.
    ensures params.repeats.Some? ==> f.repeats == params.repeats.value
    ensures params.repeats.None? && def.Some? && |def.value.shape| > 0 ==> f.repeats
    ensures params.repeats.None? && def.Some? && |def.value.shape| == 0 && def.value.repeats.Some? ==>
              f.repeats == def.value.repeats.value
    ensures params.repeats.None? && (def.None? || (|def.value.shape| == 0 && def.value.repeats.None?)) ==>
              f.repeats == (parent.Some? && parent.value.repeats)
    // The parent is kept, and only a filter with a parent gets a prefixed full label.
    ensures f.parent == parent
    ensures f.labelFull == LabelFull(env, params.name, f.labelText, parent.Some?)
    ensures parent.None? ==> f.labelFull == f.labelText
    ensures f.section <==> def.Some? && def.value.nested.Some?
    ensures f.default == params.default
  {
  }

  /** `new Filter(def, params, parent)`: the assembled record, unless it has a
      truthy default without being global, or a query mode without being
      multi-valued. */
  function NewFilter(env: Env, def: Option<Definition>, params: Params, parent: Option<Filter>): (r: Result<Filter, FilterError>)
    ensures r.Success? <==> !DefaultRefused(params) && !QueryModeRefused(params)
    ensures r.Failure? ==> r.error == if DefaultRefused(params) then DefaultOnNonGlobal else QueryModeOnSingle
    ensures r.Success? ==> Invariant(r.value)
    ensures r.Success? ==> r.value == Build(env, def, params, parent)
  {
    var f := Build(env, def, params, parent);
    if f.default.Some? && Truthy(f.default.value) && !f.global then Failure(DefaultOnNonGlobal)
    else if Present(f.queryMode) && !f.multiple then Failure(QueryModeOnSingle)
    else Success(f)
  }
}

=== FILE: inputtext.dfy ===
/** The decision logic of the two text inputs of the search interface:
    the generic `InputText` (key, input-change and blur handling, reported
    as the callbacks it calls) and `InputTextQuantity` (which submits typed
    values into the filter of one quantity). */
module InputText {
  import opened Wrappers
  import opened Text
  import JsSet
  import Filters

  datatype Key = Escape | Enter | OtherKey(name: string)

  /** Which callbacks the parent passed in. */
  datatype Callbacks = Callbacks(onChange: bool, onAccept: bool, onSelect: bool, onBlur: bool, onError: bool)

  /** A callback call: `onError(undefined)`, `onChange(text)`,
      `onSelect(text)`, `onAccept(value)` and `onBlur()`. */
  datatype Effect = ClearError | Change(text: string) | Select(text: string) | Accept(value: Option<string>) | Blur

  /** The effect, if its callback was passed in. */
  function Emit(present: bool, e: Effect): (r: seq<Effect>)
    ensures e in r <==> present
    ensures |r| <= 1
  {
    if present then [e] else []
  }

  /** The menu state after a key press, the callbacks called, and whether the
      event was consumed (propagation stopped, default prevented). */
  datatype KeyOutcome = KeyOutcome(open: bool, effects: seq<Effect>, consumed: bool)

  /** `clearInputValue`: clears the error, empties the text, closes the menu. */
  function Clear(cb: Callbacks): seq<Effect> {
    Emit(cb.onError, ClearError) + Emit(cb.onChange, Change(""))
  }

  /** `value && value.trim()`: `undefined` stays `undefined`, text is trimmed
      (the empty string trims to itself). */
  function TrimmedValue(value: Option<string>): (r: Option<string>)
    ensures r.Some? <==> value.Some?
    ensures r.Some? ==> r.value == Trim(value.value)
  {
    if value.Some? then Some(Trim(value.value)) else None
  }

  /** Escape in `handleKeyDown`: a menu that shows items is closed, otherwise
      the input is cleared. */
  function EscapeDown(cb: Callbacks, open: bool, suggestionCount: nat): (r: KeyOutcome)
    ensures r.consumed && !r.open
    // Escape closes a menu that shows items, and nothing else.
    ensures open && suggestionCount > 0 ==> r.effects == []
    // Otherwise Escape clears: the error, the text, the menu.
    ensures !(open && suggestionCount > 0) ==>
              && (ClearError in r.effects <==> cb.onError)
              && (Change("") in r.effects <==> cb.onChange)
              && (forall e :: e in r.effects ==> e == ClearError || e == Change(""))
    // The error is cleared before the text.
    ensures !(open && suggestionCount > 0) && cb.onError && cb.onChange ==> r.effects == [ClearError, Change("")]
  {
    if open && suggestionCount > 0 then KeyOutcome(false, [], true)
    else KeyOutcome(false, Clear(cb), true)
  }

  /** Enter in `handleKeyDown`: the menu closes and the highlighted label is
      selected, or else the text is accepted, trimmed either way. */
  function EnterDown(cb: Callbacks, open: bool, highlight: Option<string>, value: Option<string>): (r: KeyOutcome)
    ensures r.consumed && !r.open && |r.effects| <= 1
    ensures open && highlight.Some? ==> r.effects == Emit(cb.onSelect, Select(Trim(highlight.value)))
    ensures !(open && highlight.Some?) ==> r.effects == Emit(cb.onAccept, Accept(TrimmedValue(value)))
  {
    if open && highlight.Some? then KeyOutcome(false, Emit(cb.onSelect, Select(Trim(highlight.value))), true)
    else KeyOutcome(false, Emit(cb.onAccept, Accept(TrimmedValue(value))), true)
  }

  /** Whatever Enter hands on has no surrounding whitespace. */
  lemma EnterHandsOnTrimmed(cb: Callbacks, open: bool, highlight: Option<string>, value: Option<string>)
    ensures var r := EnterDown(cb, open, highlight, value);
            forall i :: 0 <= i < |r.effects| ==>
              || (r.effects[i].Select? && Trimmed(r.effects[i].text))
              || (r.effects[i].Accept? && (r.effects[i].value.Some? ==> Trimmed(r.effects[i].value.value)))
  {
    var r := EnterDown(cb, open, highlight, value);
    if open && highlight.Some? {
      var t := Trim(highlight.value);
      assert Trimmed(t);
      assert r.effects == if cb.onSelect then [Select(t)] else [];
    } else {
      var v := TrimmedValue(value);
      assert v.Some? ==> Trimmed(Trim(value.value));
      assert r.effects == if cb.onAccept then [Accept(v)] else [];
    }
  }

  /** `handleKeyDown` of `InputText`. `suggestionCount` is the length of the
      suggestion list (0 when there is none), `highlight` the label of the
      highlighted option, if any, and `value` the current text. Only Escape
      and Enter are handled, and both are consumed. */
  function KeyDown(cb: Callbacks, key: Key, open: bool, suggestionCount: nat, highlight: Option<string>, value: Option<string>): (r: KeyOutcome)
    ensures r.consumed <==> key == Escape || key == Enter
    ensures !r.consumed ==> r == KeyOutcome(open, [], false)
    ensures key == Escape ==> r == EscapeDown(cb, open, suggestionCount)
    ensures key == Enter ==> r == EnterDown(cb, open, highlight, value)
  {
    match key
    case Escape => EscapeDown(cb, open, suggestionCount)
    case Enter => EnterDown(cb, open, highlight, value)
    case OtherKey(_) => KeyOutcome(open, [], false)
  }

  /** Escape on a menu that shows items only closes it; a second Escape then clears the input. */
  lemma EscapeTwiceClears(cb: Callbacks, suggestionCount: nat, highlight: Option<string>, value: Option<string>)
    requires suggestionCount > 0
    ensures var first := KeyDown(cb, Escape, true, suggestionCount, highlight, value);
            var second := KeyDown(cb, Escape, first.open, suggestionCount, highlight, value);
            && first.effects == [] && !first.open
            && second.effects == Clear(cb) && !second.open
  {
  }

  /** `handleInputChange` of `InputText`: the error is always cleared; with
      an event, a `reset` selects the text and anything else changes it. */
  function InputChange(cb: Callbacks, hasEvent: bool, value: string, reason: string): (r: seq<Effect>)
    ensures cb.onError ==> |r| >= 1 && r[0] == ClearError
    ensures !hasEvent ==> r == Emit(cb.onError, ClearError)
    ensures Select(value) in r <==> hasEvent && reason == "reset" && cb.onSelect
    ensures Change(value) in r <==> hasEvent && reason != "reset" && cb.onChange
    ensures |r| <= 2
    ensures forall e :: e in r ==> e == ClearError || e == Select(value) || e == Change(value)
  {
    Emit(cb.onError, ClearError) +
    (if !hasEvent then []
     else if reason == "reset" then Emit(cb.onSelect, Select(value))
     else Emit(cb.onChange, Change(value)))
  }

  /** `handleBlur` of `InputText`: blur first, then accept the text untrimmed. */
  function BlurEffects(cb: Callbacks, value: Option<string>): (r: seq<Effect>)
    ensures Accept(value) in r <==> cb.onAccept
    ensures Blur in r <==> cb.onBlur
    ensures cb.onBlur && cb.onAccept ==> r == [Blur, Accept(value)]
  {
    Emit(cb.onBlur, Blur) + Emit(cb.onAccept, Accept(value))
  }

  /** The state of an `InputTextQuantity` together with the value of its
      quantity's filter and the texts handed to its `onChange` so far. */
  datatype QuantityView = QuantityView(
    inputValue: string,
    suggestionInput: string,
    highlighted: Option<string>,
    open: bool,
    error: Option<string>,
    filter: Option<seq<string>>,
    notified: seq<string>)

  /** The initial state, given the filter's current value. */
  function Initial(filter: Option<seq<string>>): QuantityView {
    QuantityView("", "", Some(""), false, None, filter, [])
  }

  /** `handleChange(input)`: sets the text and reports it. */
  function SetInput(v: QuantityView, input: string, hasOnChange: bool): QuantityView {
    v.(inputValue := input, notified := v.notified + (if hasOnChange then [input] else []))
  }

  /** `clearInputValue` of `InputTextQuantity`. */
  function ClearQuantity(v: QuantityView, hasOnChange: bool): QuantityView {
    SetInput(v, "", hasOnChange).(suggestionInput := "", open := false)
  }

  /** The filter after submitting `value`: a one-element set when the
      filter is unset or single-valued, else the old set plus `value`. */
  function SubmittedFilter(previous: Option<seq<string>>, value: string, multiple: bool): (r: seq<string>)
    ensures forall y :: y in r <==> y == value || (multiple && previous.Some? && y in previous.value)
    ensures (previous.Some? ==> JsSet.Distinct(previous.value)) ==> JsSet.Distinct(r)
    ensures previous.Some? && multiple ==> |previous.value| <= |r| && r[..|previous.value|] == previous.value
  {
    if previous.None? || !multiple then [value] else JsSet.Add(previous.value, value)
  }

  /** `handleSubmit(value)`; `multiple` is the filter's own flag. */
  function Submit(v: QuantityView, value: string, multiple: bool, hasOnChange: bool): (r: QuantityView)
    // Whitespace is not submitted.
    ensures AllWhitespace(value) ==> r == v
    ensures !AllWhitespace(value) ==>
              && r.filter.Some?
              && (forall y :: y in r.filter.value <==>
                    y == value || (multiple && v.filter.Some? && y in v.filter.value))
              && r.inputValue == "" && r.suggestionInput == "" && !r.open
              && r.highlighted == v.highlighted && r.error == v.error
              && r.notified == v.notified + (if hasOnChange then [""] else [])
    // The filter stays a set.
    ensures (v.filter.Some? ==> JsSet.Distinct(v.filter.value)) ==> (r.filter.Some? ==> JsSet.Distinct(r.filter.value))
    // Earlier members keep their places; the new value, untrimmed, goes last.
    ensures !AllWhitespace(value) && v.filter.Some? && multiple ==>
              |v.filter.value| <= |r.filter.value| && r.filter.value[..|v.filter.value|] == v.filter.value
  {
    if |Trim(value)| == 0 then v
    else ClearQuantity(v.(filter := Some(SubmittedFilter(v.filter, value, multiple))), hasOnChange)
  }

  /** Submitting the same value twice leaves the same filter as submitting it once. */
  lemma SubmitTwice(v: QuantityView, value: string, multiple: bool, hasOnChange: bool)
    ensures var once := Submit(v, value, multiple, hasOnChange);
            Submit(once, value, multiple, hasOnChange).filter == once.filter
  {
  }

  /** `handleKeyDown` of `InputTextQuantity`; `suggestionCount` is the
      length of the manual suggestion list (0 when none was passed). */
  function QuantityKeyDown(v: QuantityView, key: Key, suggestionCount: nat, multiple: bool, hasOnChange: bool): (r: QuantityView)
    ensures key.OtherKey? ==> r == v
    ensures key == Escape && v.open && suggestionCount > 0 ==> r == v.(open := false)
    ensures key == Escape && !(v.open && suggestionCount > 0) ==>
              r.inputValue == "" && r.suggestionInput == "" && !r.open && r.filter == v.filter
    // Enter submits the highlighted value of an open menu, else the typed text.
    ensures key == Enter && v.open && Filters.Present(v.highlighted) ==>
              r == Submit(v, v.highlighted.value, multiple, hasOnChange)
    ensures key == Enter && !(v.open && Filters.Present(v.highlighted)) && AllWhitespace(v.inputValue) ==> r == v
    ensures key == Enter && !(v.open && Filters.Present(v.highlighted)) && !AllWhitespace(v.inputValue) ==>
              r.filter.Some? && v.inputValue in r.filter.value && r.inputValue == "" && !r.open
    ensures key == Enter && !(v.open && Filters.Present(v.highlighted)) ==>
              r == Submit(v, v.inputValue, multiple, hasOnChange)
  {
    match key
    case Escape =>
      if v.open && suggestionCount > 0 then v.(open := false) else ClearQuantity(v, hasOnChange)
    case Enter =>
      if v.open && Filters.Present(v.highlighted) then Submit(v, v.highlighted.value, multiple, hasOnChange)
      else Submit(v, v.inputValue, multiple, hasOnChange)
    case OtherKey(_) => v
  }

  /** In `InputTextQuantity` too, a first Escape on a menu showing items only
      closes it, and a second one clears the text and the suggestion query. */
  lemma QuantityEscapeTwice(v: QuantityView, suggestionCount: nat, multiple: bool, hasOnChange: bool)
    requires v.open && suggestionCount > 0
    ensures var first := QuantityKeyDown(v, Escape, suggestionCount, multiple, hasOnChange);
            var second := QuantityKeyDown(first, Escape, suggestionCount, multiple, hasOnChange);
            && first == v.(open := false)
            && second.inputValue == "" && second.suggestionInput == "" && !second.open
            && second.filter == v.filter
  {
  }

  /** `disableSuggestionsFinal`: manual suggestions always disable automatic
      ones; otherwise the explicit flag decides, and without it the
      quantity's own `suggestion` setting. */
  function SuggestionsDisabled(manual: bool, disableSuggestions: Option<bool>, quantitySuggests: Option<bool>): (r: bool)
    ensures manual ==> r
    ensures !manual && disableSuggestions.Some? ==> r == disableSuggestions.value
    ensures !manual && disableSuggestions.None? ==> (r <==> quantitySuggests != Some(true))
  {
    if manual then true
    else if disableSuggestions.None? then quantitySuggests != Some(true)
    else disableSuggestions.value
  }

  /** `handleInputChange` of `InputTextQuantity`: clears the error, submits
      a selected option or sets the typed text, then refreshes the
      suggestion query on typing or when the text became blank. */
  function QuantityInputChange(v: QuantityView, value: string, reason: string, disabled: bool,
                               multiple: bool, hasOnChange: bool): (r: QuantityView)
    ensures r.error == None
    ensures reason != "reset" ==> r.inputValue == value && r.filter == v.filter
    ensures reason == "reset" && !AllWhitespace(value) ==>
              r.filter.Some? && value in r.filter.value && r.inputValue == ""
    ensures reason == "reset" && AllWhitespace(value) ==> r.filter == v.filter && r.inputValue == v.inputValue
    // 'reset' submits the value: the filter, text, menu and reports are those of `handleSubmit`.
    ensures reason == "reset" ==>
              var submitted := Submit(v.(error := None), value, multiple, hasOnChange);
              && r.filter == submitted.filter && r.notified == submitted.notified
              && r.inputValue == submitted.inputValue && r.open == submitted.open
    // The suggestion query follows the text only when enabled, on typing or a blank text.
    ensures !disabled && (AllWhitespace(value) || reason == "input") ==> r.suggestionInput == value
    ensures !(!disabled && (AllWhitespace(value) || reason == "input")) ==>
              r.suggestionInput == (if reason == "reset" && !AllWhitespace(value) then "" else v.suggestionInput)
  {
    var cleared := v.(error := None);
    var next := if reason == "reset" then Submit(cleared, value, multiple, hasOnChange) else SetInput(cleared, value, hasOnChange);
    if !disabled && (|Trim(value)| == 0 || reason == "input") then next.(suggestionInput := value) else next
  }
}

=== FILE: jsobject.dfy ===
/** A plain JavaScript object with string keys, as its entries in insertion
    order (the order `Object.keys` and `Object.entries` report for keys that
    are not array indices). */
module JsObject {
  import opened Wrappers
  import JsSet

  datatype Entry<V> = Entry(key: string, val: V)

  type Obj<V> = seq<Entry<V>>

  /** `Object.keys(o)`. */
  function Keys<V>(o: Obj<V>): (ks: seq<string>)
    ensures |ks| == |o|
  {
    if |o| == 0 then [] else [o[0].key] + Keys(o[1..])
  }

  /** No key occurs twice, as in any object JavaScript builds. */
  predicate WellFormed<V>(o: Obj<V>) {
    JsSet.Distinct(Keys(o))
  }

  /** `o[k]`, `None` standing for `undefined`. */
  function Get<V>(o: Obj<V>, k: string): (r: Option<V>)
    ensures r.Some? <==> k in Keys(o)
  {
    if |o| == 0 then None
    else if o[0].key == k then Some(o[0].val)
    else Get(o[1..], k)
  }

  /** `o[k] = v`: an existing key keeps its position, a new key goes last;
      every other key keeps its value. */
  function Put<V>(o: Obj<V>, k: string, v: V): (r: Obj<V>)
    ensures Get(r, k) == Some(v)
    ensures forall k' :: k' != k ==> Get(r, k') == Get(o, k')
    ensures Keys(r) == JsSet.Add(Keys(o), k)
  {
    if |o| == 0 then [Entry(k, v)]
    else if o[0].key == k then [Entry(k, v)] + o[1..]
    else
      var t := Put(o[1..], k, v);
      var r := [o[0]] + t;
      assert r[1..] == t;
      assert Keys(r) == [o[0].key] + Keys(t);
      assert Keys(o) == [o[0].key] + Keys(o[1..]);
      assert k in Keys(o) <==> k in Keys(o[1..]);
      assert Keys(r) == JsSet.Add(Keys(o), k) by {
        if k in Keys(o[1..]) {
          assert Keys(r) == Keys(o);
        } else {
          assert Keys(t) == Keys(o[1..]) + [k];
          assert Keys(r) == Keys(o) + [k];
        }
      }
      r
  }

  /** `delete o[k]`: `k` is gone and every other key keeps its value and place. */
  function Delete<V>(o: Obj<V>, k: string): (r: Obj<V>)
    ensures Get(r, k) == None
    ensures forall k' :: k' != k ==> Get(r, k') == Get(o, k')
    ensures Keys(r) == JsSet.Delete(Keys(o), k)
  {
    if |o| == 0 then []
    else if o[0].key == k then Delete(o[1..], k)
    else
      var r := [o[0]] + Delete(o[1..], k);
      assert Keys(r) == [o[0].key] + Keys(Delete(o[1..], k));
      r
  }

  /** `ks.forEach(k => delete o[k])`. */
  function DeleteAll<V>(o: Obj<V>, ks: seq<string>): (r: Obj<V>)
    ensures forall k :: Get(r, k) == if k in ks then None else Get(o, k)
    ensures WellFormed(o) ==> WellFormed(r)
    ensures Keys(r) == JsSet.Without(Keys(o), ks)
    decreases |ks|
  {
    if |ks| == 0 then
      JsSet.WithoutNothing(Keys(o), ks);
      o
    else
      var r := DeleteAll(Delete(o, ks[0]), ks[1..]);
      JsSet.DeleteThenWithout(Keys(o), ks[0], ks[1..]);
      assert [ks[0]] + ks[1..] == ks;
      r
  }
}

=== FILE: jsset.dfy ===
/** A JavaScript `Set`: its members in insertion order, each exactly once.
    Iteration order is observable in the search components (one chip per
    member, in order), so a set is a duplicate-free sequence here. */
module JsSet {

  predicate Distinct<T(==,!new)>(s: seq<T>) {
    forall i, j :: 0 <= i < j < |s| ==> s[i] != s[j]
  }

  /** `s.add(x)`: the members of `s` plus `x`; a new member goes last. */
  function Add<T(==,!new)>(s: seq<T>, x: T): (r: seq<T>)
    ensures forall y :: y in r <==> y in s || y == x
    ensures Distinct(s) ==> Distinct(r)
    ensures |s| <= |r| && r[..|s|] == s
  {
    if x in s then s else s + [x]
  }

  /** `xs.forEach(x => s.add(x))`: the union, the members of `s` first. */
  function AddAll<T(==,!new)>(s: seq<T>, xs: seq<T>): (r: seq<T>)
    ensures forall y :: y in r <==> y in s || y in xs
    ensures Distinct(s) ==> Distinct(r)
    ensures |s| <= |r| && r[..|s|] == s
    decreases |xs|
  {
    if |xs| == 0 then s
    else
      var t := Add(s, xs[0]);
      var r := AddAll(t, xs[1..]);
      assert r[..|s|] == r[..|t|][..|s|];
      r
  }

  /** `s.delete(x)` on a copy: every member except `x`, order kept. */
  function Delete<T(==,!new)>(s: seq<T>, x: T): (r: seq<T>)
    ensures forall y :: y in r <==> y in s && y != x
    ensures Distinct(s) ==> Distinct(r)
    ensures |r| <= |s|
    ensures x !in s ==> r == s
    ensures x in s && Distinct(s) ==> |r| == |s| - 1
  {
    if |s| == 0 then []
    else if s[0] == x then
      var r := Delete(s[1..], x);
      assert Distinct(s) ==> Distinct(s[1..]) && x !in s[1..];
      r
    else
      var t := Delete(s[1..], x);
      assert Distinct(s) ==> Distinct(s[1..]) && s[0] !in t;
      assert s == [s[0]] + s[1..];
      [s[0]] + t
  }

  /** The members of `s` that are not in `xs`, in the order of `s`. */
  function Without<T(==,!new)>(s: seq<T>, xs: seq<T>): (r: seq<T>)
    ensures forall y :: y in r <==> y in s && y !in xs
    ensures Distinct(s) ==> Distinct(r)
  {
    if |s| == 0 then []
    else if s[0] in xs then Without(s[1..], xs)
    else
      var t := Without(s[1..], xs);
      assert Distinct(s) ==> Distinct(s[1..]) && s[0] !in t;
      [s[0]] + t
  }

  /** Removing nothing keeps every member in place. */
  lemma {:induction false} WithoutNothing<T(!new)>(s: seq<T>, xs: seq<T>)
    requires |xs| == 0
    ensures Without(s, xs) == s
  {
    if |s| > 0 {
      WithoutNothing(s[1..], xs);
    }
  }

  /** Deleting `x` and then everything in `xs` deletes everything in `[x] + xs`. */
  lemma {:induction false} DeleteThenWithout<T(!new)>(s: seq<T>, x: T, xs: seq<T>)
    ensures Without(Delete(s, x), xs) == Without(s, [x] + xs)
  {
    if |s| > 0 {
      DeleteThenWithout(s[1..], x, xs);
      if s[0] != x {
        var t := Delete(s[1..], x);
        assert ([s[0]] + t)[0] == s[0] && ([s[0]] + t)[1..] == t;
      }
    }
  }

  /** `new Set(xs)`: the distinct elements of `xs`, in order of first occurrence. */
  function FromSeq<T(==,!new)>(xs: seq<T>): (r: seq<T>)
    ensures forall y :: y in r <==> y in xs
    ensures Distinct(r)
  {
    AddAll([], xs)
  }
}

=== FILE: registry.dfy ===
/** The filter registry of the search interface: every registered filter by
    name (in registration order) and the named groups filters belong to.
    Registration is first-wins. Also the custom query setters the registry
    attaches to some filters, and the static suggestion rules. */
module FilterRegistry {
  import opened Wrappers
  import opened Text
  import JsSet
  import JsObject
  import opened Filters

  /** `filterData` (name to filter; `order` is its `Object.keys` order) and
      `filterGroups` (group name to the names in it). */
  datatype Registry = Registry(
    filters: map<string, Filter>,
    order: seq<string>,
    groups: map<string, set<string>>)

  const EmptyRegistry := Registry(map[], [], map[])

  /** Every registered name is listed once in `order`, and nothing else is. */
  predicate Valid(reg: Registry) {
    && JsSet.Distinct(reg.order)
    && reg.filters.Keys == set n | n in reg.order
  }

  /** What a registration call leaves behind: the registry, and its result or
      the error it threw. A throw keeps the group membership recorded before
      the filter was constructed. */
  datatype Outcome<T> = Ok(reg: Registry, out: T) | Threw(reg: Registry, error: FilterError)

  /** `filterGroups[group].add(name)` (creating the group) when the group is given. */
  function AddToGroup(groups: map<string, set<string>>, group: Option<string>, name: string): (r: map<string, set<string>>)
    ensures Present(group) ==> group.value in r && name in r[group.value]
    ensures Present(group) && group.value in groups ==> r[group.value] == groups[group.value] + {name}
    ensures forall g :: g in groups && (!Present(group) || g != group.value) ==> g in r && r[g] == groups[g]
    ensures forall g :: g in r ==> g in groups || (Present(group) && g == group.value)
    ensures !Present(group) ==> r == groups
  {
    if !Present(group) then groups
    else if group.value in groups then groups[group.value := groups[group.value] + {name}]
    else groups[group.value := {name}]
  }

  /** `saveFilter(name, group, config, parent)`. */
  function SaveFilter(env: Env, reg: Registry, name: string, group: Option<string>, config: Params, parent: Option<Filter>): (r: Outcome<Filter>)
    ensures Valid(reg) ==> Valid(r.reg)
    ensures r.reg.groups == AddToGroup(reg.groups, group, name)
    // First wins: a registered name gives back its stored filter and changes no filter.
    ensures name in reg.filters ==>
              r.Ok? && r.out == reg.filters[name] && r.reg.filters == reg.filters && r.reg.order == reg.order
    // A new name gets the filter built from its definition and a copy of the config named `name`.
    ensures name !in reg.filters ==>
              (r.Ok? <==> NewFilter(env, Lookup(env, name), config.(name := name), parent).Success?)
    ensures name !in reg.filters && r.Ok? ==>
              r.out == Build(env, Lookup(env, name), config.(name := name), parent) && r.reg.order == reg.order + [name]
    ensures r.Ok? ==> name in r.reg.filters && r.reg.filters[name] == r.out
    ensures r.Threw? ==> r.reg.filters == reg.filters && r.reg.order == reg.order
    // No other filter changes.
    ensures forall n :: n in reg.filters ==> n in r.reg.filters && r.reg.filters[n] == reg.filters[n]
    ensures forall n :: n in r.reg.filters ==> n in reg.filters || n == name
  {
    var groups := AddToGroup(reg.groups, group, name);
    if name in reg.filters then Ok(reg.(groups := groups), reg.filters[name])
    else
      match NewFilter(env, Lookup(env, name), config.(name := name), parent)
      case Success(f) => Ok(Registry(reg.filters[name := f], reg.order + [name], groups), f)
      case Failure(e) => Threw(reg.(groups := groups), e)
  }

  /** The name a sub-quantity is saved under. */
  function SubName(name: string, sub: Params): string {
    name + "." + sub.name
  }

  function SubNames(name: string, subs: seq<Params>): (r: seq<string>)
    ensures |r| == |subs|
    ensures forall i :: 0 <= i < |subs| ==> r[i] == SubName(name, subs[i])
  {
    if |subs| == 0 then [] else [SubName(name, subs[0])] + SubNames(name, subs[1..])
  }

  /** The loop of `registerFilter` over sub-quantities, each saved in the same
      group with `parent` as its parent; the first throw ends it. */
  function RegisterSubs(env: Env, reg: Registry, name: string, group: Option<string>, subs: seq<Params>, parent: Filter): (r: Outcome<()>)
    ensures Valid(reg) ==> Valid(r.reg)
    ensures r.Ok? ==> forall i :: 0 <= i < |subs| ==> SubName(name, subs[i]) in r.reg.filters
    ensures r.Ok? ==> forall i :: 0 <= i < |subs| && SubName(name, subs[i]) !in reg.filters ==>
                         r.reg.filters[SubName(name, subs[i])].parent == Some(parent)
    ensures forall n :: n in reg.filters ==> n in r.reg.filters && r.reg.filters[n] == reg.filters[n]
    ensures forall n :: n in r.reg.filters ==> n in reg.filters || n in SubNames(name, subs)
    decreases |subs|
  {
    if |subs| == 0 then Ok(reg, ())
    else
      match SaveFilter(env, reg, SubName(name, subs[0]), group, subs[0], Some(parent))
      case Threw(reg1, e) => Threw(reg1, e)
      case Ok(reg1, _) =>
        var r := RegisterSubs(env, reg1, name, group, subs[1..], parent);
        assert forall i :: 1 <= i < |subs| ==> subs[1..][i - 1] == subs[i];
        r
  }

  /** `subs[i]` is the first sub-quantity saved under its name. */
  predicate FirstSub(name: string, subs: seq<Params>, i: int)
    requires 0 <= i < |subs|
  {
    forall j :: 0 <= j < i ==> SubName(name, subs[j]) != SubName(name, subs[i])
  }

  /** The loop succeeds when the constructor accepts every sub-configuration. */
  lemma {:induction false} RegisterSubsSucceeds(env: Env, reg: Registry, name: string, group: Option<string>, subs: seq<Params>,
                                                parent: Filter)
    ensures (forall i :: 0 <= i < |subs| ==> Accepted(subs[i])) ==> RegisterSubs(env, reg, name, group, subs, parent).Ok?
    decreases |subs|
  {
    if |subs| > 0 && forall i :: 0 <= i < |subs| ==> Accepted(subs[i]) {
      RegisterSubsStep(env, reg, name, group, subs, parent);
      AcceptedConstructs(env, Lookup(env, SubName(name, subs[0])), subs[0], SubName(name, subs[0]), Some(parent));
      var saved := SaveFilter(env, reg, SubName(name, subs[0]), group, subs[0], Some(parent));
      assert forall i :: 1 <= i < |subs| ==> subs[1..][i - 1] == subs[i];
      RegisterSubsSucceeds(env, saved.reg, name, group, subs[1..], parent);
    }
  }

  /** A first occurrence after the head is a first occurrence in the tail. */
  lemma FirstSubTail(name: string, subs: seq<Params>, i: int)
    requires 0 < i < |subs| && FirstSub(name, subs, i)
    ensures subs[1..][i - 1] == subs[i] && SubName(name, subs[0]) != SubName(name, subs[i])
    ensures FirstSub(name, subs[1..], i - 1)
  {
    forall j | 0 <= j < i - 1
      ensures SubName(name, subs[1..][j]) != SubName(name, subs[1..][i - 1])
    {
      assert subs[1..][j] == subs[j + 1];
    }
  }

  /** A sub-quantity name the loop saves first holds the filter built from its
      definition and the sub-configuration renamed `name.sub`, with `parent` as
      its parent. */
  lemma {:induction false} RegisterSubsStores(env: Env, reg: Registry, name: string, group: Option<string>, subs: seq<Params>,
                                              parent: Filter, r: Outcome<()>)
    requires r == RegisterSubs(env, reg, name, group, subs, parent)
    ensures r.Ok? ==>
              forall i :: 0 <= i < |subs| && SubName(name, subs[i]) !in reg.filters && FirstSub(name, subs, i) ==>
                r.reg.filters[SubName(name, subs[i])]
                  == Build(env, Lookup(env, SubName(name, subs[i])), subs[i].(name := SubName(name, subs[i])), Some(parent))
    decreases |subs|
  {
    if |subs| > 0 {
      RegisterSubsStep(env, reg, name, group, subs, parent);
      var saved := SaveFilter(env, reg, SubName(name, subs[0]), group, subs[0], Some(parent));
      if saved.Ok? {
        var rest := RegisterSubs(env, saved.reg, name, group, subs[1..], parent);
        RegisterSubsStores(env, saved.reg, name, group, subs[1..], parent, rest);
        assert r == rest;
        if r.Ok? {
          forall i | 0 <= i < |subs| && SubName(name, subs[i]) !in reg.filters && FirstSub(name, subs, i)
            ensures r.reg.filters[SubName(name, subs[i])]
                      == Build(env, Lookup(env, SubName(name, subs[i])), subs[i].(name := SubName(name, subs[i])), Some(parent))
          {
            if i == 0 {
              assert saved.reg.filters[SubName(name, subs[0])] == saved.out;
            } else {
              FirstSubTail(name, subs, i);
              assert SubName(name, subs[i]) !in saved.reg.filters;
            }
          }
        }
      }
    }
  }

  /** One step of the loop: the first sub-quantity joins the group, then the rest
      are registered unless saving it threw. */
  lemma RegisterSubsStep(env: Env, reg: Registry, name: string, group: Option<string>, subs: seq<Params>, parent: Filter)
    requires |subs| > 0
    ensures var saved := SaveFilter(env, reg, SubName(name, subs[0]), group, subs[0], Some(parent));
            var r := RegisterSubs(env, reg, name, group, subs, parent);
            && saved.reg.groups == AddToGroup(reg.groups, group, SubName(name, subs[0]))
            && (saved.Ok? ==> r == RegisterSubs(env, saved.reg, name, group, subs[1..], parent))
            && (saved.Threw? ==> r.reg == saved.reg)
  {
  }

  /** Groups only grow across the loop, and only the named group changes. */
  lemma {:induction false} RegisterSubsKeepsGroups(env: Env, reg: Registry, name: string, group: Option<string>, subs: seq<Params>, parent: Filter)
    ensures var r := RegisterSubs(env, reg, name, group, subs, parent);
            && (forall g :: g in reg.groups ==> g in r.reg.groups && reg.groups[g] <= r.reg.groups[g])
            && (forall g :: g in reg.groups && (!Present(group) || g != group.value) ==> r.reg.groups[g] == reg.groups[g])
    decreases |subs|
  {
    if |subs| > 0 {
      RegisterSubsStep(env, reg, name, group, subs, parent);
      var saved := SaveFilter(env, reg, SubName(name, subs[0]), group, subs[0], Some(parent));
      if saved.Ok? {
        RegisterSubsKeepsGroups(env, saved.reg, name, group, subs[1..], parent);
      }
    }
  }

  /** Each sub-quantity registered by the loop is listed in the group. */
  lemma {:induction false} RegisterSubsJoinGroup(env: Env, reg: Registry, name: string, group: Option<string>, subs: seq<Params>, parent: Filter)
    requires Present(group)
    ensures var r := RegisterSubs(env, reg, name, group, subs, parent);
            r.Ok? && |subs| > 0 ==>
              group.value in r.reg.groups &&
              forall i :: 0 <= i < |subs| ==> SubName(name, subs[i]) in r.reg.groups[group.value]
    decreases |subs|
  {
    if |subs| > 0 {
      RegisterSubsStep(env, reg, name, group, subs, parent);
      var saved := SaveFilter(env, reg, SubName(name, subs[0]), group, subs[0], Some(parent));
      if saved.Ok? {
        RegisterSubsJoinGroup(env, saved.reg, name, group, subs[1..], parent);
        RegisterSubsKeepsGroups(env, saved.reg, name, group, subs[1..], parent);
        assert forall i :: 1 <= i < |subs| ==> subs[1..][i - 1] == subs[i];
      }
    }
  }

  /** The sub-quantities join the group of their parent, and no other group changes. */
  lemma RegisterSubsGroups(env: Env, reg: Registry, name: string, group: Option<string>, subs: seq<Params>, parent: Filter)
    ensures var r := RegisterSubs(env, reg, name, group, subs, parent);
            && (r.Ok? && Present(group) && |subs| > 0 ==>
                  group.value in r.reg.groups &&
                  forall i :: 0 <= i < |subs| ==> SubName(name, subs[i]) in r.reg.groups[group.value])
            && (forall g :: g in reg.groups ==> g in r.reg.groups && reg.groups[g] <= r.reg.groups[g])
            && (forall g :: g in reg.groups && (!Present(group) || g != group.value) ==> r.reg.groups[g] == reg.groups[g])
  {
    RegisterSubsKeepsGroups(env, reg, name, group, subs, parent);
    if Present(group) {
      RegisterSubsJoinGroup(env, reg, name, group, subs, parent);
    }
  }

  /** `registerFilter(name, group, config, subQuantities)`: the filter itself,
      then each sub-quantity `name.sub` with the filter stored under `name` as parent. */
  function RegisterFilter(env: Env, reg: Registry, name: string, group: Option<string>, config: Params, subs: Option<seq<Params>>): (r: Outcome<()>)
    ensures Valid(reg) ==> Valid(r.reg)
    ensures r.Ok? ==> name in r.reg.filters
    ensures r.Ok? && Present(group) ==> group.value in r.reg.groups && name in r.reg.groups[group.value]
    ensures r.Ok? && subs.Some? ==> forall i :: 0 <= i < |subs.value| ==> SubName(name, subs.value[i]) in r.reg.filters
    ensures r.Ok? && subs.Some? ==>
              forall i :: 0 <= i < |subs.value| && SubName(name, subs.value[i]) !in reg.filters ==>
                r.reg.filters[SubName(name, subs.value[i])].parent == Some(r.reg.filters[name])
    // Registered filters are never replaced.
    ensures forall n :: n in reg.filters ==> n in r.reg.filters && r.reg.filters[n] == reg.filters[n]
    ensures forall g :: g in reg.groups && (!Present(group) || g != group.value) ==>
              g in r.reg.groups && r.reg.groups[g] == reg.groups[g]
    // Configurations the constructor accepts register; a refused new filter throws.
    ensures Accepted(config) && (subs.Some? ==> forall i :: 0 <= i < |subs.value| ==> Accepted(subs.value[i])) ==> r.Ok?
    ensures name !in reg.filters && !Accepted(config) ==> r.Threw?
    // A new name holds the filter built from its definition and the config renamed `name`.
    ensures name !in reg.filters && r.Ok? ==> r.reg.filters[name] == Build(env, Lookup(env, name), config.(name := name), None)
  {
    match SaveFilter(env, reg, name, group, config, None)
    case Threw(reg1, e) =>
      assert !Accepted(config) by {
        if Accepted(config) {
          AcceptedConstructs(env, Lookup(env, name), config, name, None);
        }
      }
      Threw(reg1, e)
    case Ok(reg1, parent) =>
      if subs.None? then Ok(reg1, ())
      else
        assert name !in SubNames(name, subs.value);
        RegisterSubsGroups(env, reg1, name, group, subs.value, parent);
        RegisterSubsSucceeds(env, reg1, name, group, subs.value, parent);
        RegisterSubs(env, reg1, name, group, subs.value, parent)
  }

  /** Each new sub-quantity name of a successful registration holds the filter
      built from its definition and its first sub-configuration, with the filter
      stored under `name` as parent. */
  lemma RegisterFilterStoresSubs(env: Env, reg: Registry, name: string, group: Option<string>, config: Params,
                                 subs: Option<seq<Params>>, r: Outcome<()>)
    requires r == RegisterFilter(env, reg, name, group, config, subs)
    ensures r.Ok? && subs.Some? ==>
              forall i :: 0 <= i < |subs.value| && SubName(name, subs.value[i]) !in reg.filters && FirstSub(name, subs.value, i) ==>
                var sub := SubName(name, subs.value[i]);
                r.reg.filters[sub] == Build(env, Lookup(env, sub), subs.value[i].(name := sub), Some(r.reg.filters[name]))
  {
    var saved := SaveFilter(env, reg, name, group, config, None);
    if saved.Ok? && subs.Some? {
      assert name !in SubNames(name, subs.value);
      RegisterSubsStores(env, saved.reg, name, group, subs.value, saved.out, r);
    }
  }

  /** A second registration of a name, without sub-quantities, leaves every filter as it was. */
  lemma RegisterFilterFirstWins(env: Env, reg: Registry, name: string, group: Option<string>, config: Params)
    requires name in reg.filters
    ensures var r := RegisterFilter(env, reg, name, group, config, None);
            r.Ok? && r.reg.filters == reg.filters && r.reg.order == reg.order
  {
  }

  /** The terms-aggregation and query-value configuration of an option-subset filter. */
  function SubsetConfig(name: string, target: string, labelText: string, description: string, options: Options): Params {
    NoParams(name).(
      aggs := Some(Aggs(Some(TermsSubset(target, JsObject.Keys(options))))),
      value := Some(SubsetSetter(target)),
      dtype := Some(Enum),
      multiple := Some(true),
      repeats := Some(true),
      exclusive := Some(false),
      queryMode := Some("all"),
      options := Some(options),
      labelText := Some(labelText),
      description := Some(description))
  }

  /** `registerFilterOptions(name, group, target, label, description, options)`:
      a multi-valued, non-exclusive enum filter queried with 'all', whose
      terms aggregation targets `target` restricted to the option keys. */
  function RegisterFilterOptions(env: Env, reg: Registry, name: string, group: Option<string>, target: string,
                                 labelText: string, description: string, options: Options): (r: Outcome<()>)
    ensures r.Ok? && name in r.reg.filters
    ensures Valid(reg) ==> Valid(r.reg)
    ensures name in reg.filters ==> r.reg.filters == reg.filters
    ensures name !in reg.filters ==>
              var f := r.reg.filters[name];
              && f.dtype == Enum && f.multiple && !f.exclusive && f.repeats
              && f.queryMode == Some("all")
              && f.options == Some(options)
              && f.aggs == Some(Aggs(Some(TermsSubset(target, JsObject.Keys(options)))))
              && f.value == Some(SubsetSetter(target))
  {
    var config := SubsetConfig(name, target, labelText, description, options);
    assert NewFilter(env, Lookup(env, name), config.(name := name), None).Success?;
    RegisterFilter(env, reg, name, group, config, None)
  }

  /** A value of the search query: a set of terms, a string or a flag. */
  datatype QueryValue = Members(items: seq<string>) | Str(s: string) | Flag(b: bool)

  type Query = map<string, QueryValue>

  predicate QueryTruthy(v: QueryValue) {
    match v
    case Members(_) => true
    case Str(s) => s != ""
    case Flag(b) => b
  }

  /** The query key an option-subset filter on `target` writes. */
  function AllKey(target: string): string {
    target + ":all"
  }

  /** The `value.set` of an option-subset filter on `target`. The set under
      `target`, or a new empty set, receives the submitted values and is
      written under `target:all`; an existing set is the same object, so
      `target` ends up holding the union too. Adding to a value that is not a
      set throws. */
  function SubsetSet(target: string, newQuery: Query, value: seq<string>): (r: Result<Query, string>)
    ensures r.Failure? <==> target in newQuery && QueryTruthy(newQuery[target]) && !newQuery[target].Members? && |value| > 0
    ensures r.Success? && (target !in newQuery || newQuery[target].Members? || !QueryTruthy(newQuery[target])) ==>
              && AllKey(target) in r.value && r.value[AllKey(target)].Members?
              && (forall y :: y in r.value[AllKey(target)].items <==>
                    y in value || (target in newQuery && newQuery[target].Members? && y in newQuery[target].items))
    ensures r.Success? && target in newQuery && newQuery[target].Members? ==>
              target in r.value && r.value[target] == r.value[AllKey(target)]
    // A truthy value that is not a set is copied under `target:all` when nothing is added.
    ensures r.Success? && target in newQuery && QueryTruthy(newQuery[target]) && !newQuery[target].Members? ==>
              AllKey(target) in r.value && r.value[AllKey(target)] == newQuery[target]
    ensures r.Success? ==> forall k :: k != target && k != AllKey(target) ==>
              (k in r.value <==> k in newQuery) && (k in newQuery ==> r.value[k] == newQuery[k])
  {
    if target in newQuery && QueryTruthy(newQuery[target]) then
      match newQuery[target]
      case Members(items) =>
        var u := Members(JsSet.AddAll(items, value));
        Success(newQuery[target := u][AllKey(target) := u])
      case _ =>
        if |value| == 0 then Success(newQuery[AllKey(target) := newQuery[target]]) else Failure("TypeError")
    else
      Success(newQuery[AllKey(target) := Members(JsSet.AddAll([], value))])
  }

  const ElementsKey := "results.material.elements"
  const ElementsExclusiveKey := "results.material.elements_exclusive"

  /** The element search is exclusive when the old query's `exclusive` flag is truthy. */
  predicate ExclusiveSearch(oldQuery: Query) {
    "exclusive" in oldQuery && QueryTruthy(oldQuery["exclusive"])
  }

  /** The `value.set` of `results.material.elements`: in exclusive search a
      non-empty element set is written as one string of the sorted symbols
      joined by spaces, an empty one writes nothing; otherwise the set is
      written as it is. */
  function ElementsSet(newQuery: Query, oldQuery: Query, value: seq<string>): (r: Query)
    ensures ExclusiveSearch(oldQuery) && |value| > 0 ==>
              ElementsExclusiveKey in r && r[ElementsExclusiveKey].Str? &&
              var parts := Sort(value);
              Sorted(parts) && multiset(parts) == multiset(value) && r[ElementsExclusiveKey].s == Join(parts, ' ')
    ensures ExclusiveSearch(oldQuery) && |value| == 0 ==> r == newQuery
    ensures !ExclusiveSearch(oldQuery) ==> ElementsKey in r && r[ElementsKey] == Members(value)
    ensures forall k :: k != ElementsKey && k != ElementsExclusiveKey ==>
              (k in r <==> k in newQuery) && (k in newQuery ==> r[k] == newQuery[k])
    // The key the mode does not write is left as it was.
    ensures ExclusiveSearch(oldQuery) ==>
              (ElementsKey in r <==> ElementsKey in newQuery) && (ElementsKey in newQuery ==> r[ElementsKey] == newQuery[ElementsKey])
    ensures !ExclusiveSearch(oldQuery) ==>
              && (ElementsExclusiveKey in r <==> ElementsExclusiveKey in newQuery)
              && (ElementsExclusiveKey in newQuery ==> r[ElementsExclusiveKey] == newQuery[ElementsExclusiveKey])
  {
    if ExclusiveSearch(oldQuery) then
      if |value| != 0 then newQuery[ElementsExclusiveKey := Str(Join(Sort(value), ' '))] else newQuery
    else newQuery[ElementsKey := Members(value)]
  }

  /** The exclusive element string splits back into exactly the sorted
      element symbols (symbols never contain a space). */
  lemma ElementsExclusiveRoundTrip(newQuery: Query, oldQuery: Query, value: seq<string>)
    requires ExclusiveSearch(oldQuery) && |value| > 0
    requires forall i :: 0 <= i < |value| ==> ' ' !in value[i]
    ensures var r := ElementsSet(newQuery, oldQuery, value);
            var parts := Split(r[ElementsExclusiveKey].s, ' ');
            Sorted(parts) && multiset(parts) == multiset(value)
  {
    var parts := Sort(value);
    assert |parts| == |value| by {
      assert |multiset(parts)| == |multiset(value)|;
    }
    forall i | 0 <= i < |parts|
      ensures ' ' !in parts[i]
    {
      assert parts[i] in multiset(value);
    }
    SplitJoin(parts, ' ');
  }

  /** The query-name suggestion category. */
  const QuantityNameSearch := "quantity name"

  /** The arguments of one `getSuggestions(options, minLength, category, text)`
      call; `valuePrefix` `q` stands for `value => q + "=" + value`. */
  datatype SuggestionRequest = SuggestionRequest(
    options: seq<string>,
    minLength: nat,
    category: string,
    valuePrefix: Option<string>)

  function Max(a: int, b: int): int {
    if a < b then b else a
  }

  /** The length of the longest option; -1 stands in for `Math.max()` of nothing. */
  function MaxLength(options: seq<string>): (m: int)
    ensures forall i :: 0 <= i < |options| ==> |options[i]| <= m
    ensures |options| == 0 ==> m == -1
    ensures |options| > 0 ==> exists i :: 0 <= i < |options| && m == |options[i]|
  {
    if |options| == 0 then -1
    else
      var rest := MaxLength(options[1..]);
      assert |options| > 1 ==> exists i :: 0 <= i < |options| && rest == |options[i]| by {
        if |options| > 1 {
          var j :| 0 <= j < |options[1..]| && rest == |options[1..][j]|;
          assert options[1..][j] == options[j + 1];
        }
      }
      Max(|options[0]|, rest)
  }

  /** `maxLength <= 2 ? 1 : 2`: suggestions start after one character only
      when no option is longer than two. */
  function MinLength(options: seq<string>): (m: nat)
    ensures m == 1 || m == 2
    ensures m == 1 <==> forall i :: 0 <= i < |options| ==> |options[i]| <= 2
  {
    if MaxLength(options) <= 2 then 1 else 2
  }

  /** The quantity is an enum in the metainfo (`type.type_kind === 'Enum'`). */
  predicate IsEnumQuantity(env: Env, q: string) {
    var d := Lookup(env, q);
    d.Some? && d.value.metaType.Some? && d.value.metaType.value.kind == "Enum"
  }

  /** An enum quantity whose `type_data` is a list of values. */
  predicate ListsValues(env: Env, q: string) {
    IsEnumQuantity(env, q) && Lookup(env, q).value.metaType.value.data.Listed?
  }

  function EnumRequest(env: Env, q: string): SuggestionRequest
    requires ListsValues(env, q)
  {
    var items := Lookup(env, q).value.metaType.value.data.items;
    SuggestionRequest(items, MinLength(items), q, Some(q))
  }

  /** The metainfo loop of `getStaticSuggestions`: one request per enum
      quantity, added to `acc`; an enum without a value list throws. */
  function EnumSuggestions(env: Env, acc: map<string, SuggestionRequest>, filters: seq<string>): (r: Result<map<string, SuggestionRequest>, string>)
    ensures r.Success? <==> forall i :: 0 <= i < |filters| && IsEnumQuantity(env, filters[i]) ==> ListsValues(env, filters[i])
    ensures r.Success? ==> forall q :: q in r.value <==> q in acc || (q in filters && IsEnumQuantity(env, q))
    ensures r.Success? ==> forall q :: q in filters && IsEnumQuantity(env, q) ==> r.value[q] == EnumRequest(env, q)
    ensures r.Success? ==> forall q :: q in acc && q !in filters ==> r.value[q] == acc[q]
    decreases |filters|
  {
    if |filters| == 0 then Success(acc)
    else
      var q := filters[0];
      if !IsEnumQuantity(env, q) then
        var r := EnumSuggestions(env, acc, filters[1..]);
        assert forall i :: 1 <= i < |filters| ==> filters[1..][i - 1] == filters[i];
        r
      else if !ListsValues(env, q) then Failure("TypeError")
      else
        var r := EnumSuggestions(env, acc[q := EnumRequest(env, q)], filters[1..]);
        assert forall i :: 1 <= i < |filters| ==> filters[1..][i - 1] == filters[i];
        r
  }

  /** `a` is `b` with some elements left out, the rest in their order. */
  predicate Subsequence<T(==)>(a: seq<T>, b: seq<T>)
    decreases |b|
  {
    |a| == 0 || (|b| > 0 && ((a[0] == b[0] && Subsequence(a[1..], b[1..])) || Subsequence(a, b[1..])))
  }

  /** `filters.filter(value => value !== quantityNameSearch && !filterData[value].section)`;
      an unregistered name throws. */
  function NameSuggestions(reg: Registry, filters: seq<string>): (r: Result<seq<string>, string>)
    ensures r.Success? <==> forall i :: 0 <= i < |filters| && filters[i] != QuantityNameSearch ==> filters[i] in reg.filters
    ensures r.Success? ==> forall n :: n in r.value <==>
              n in filters && n != QuantityNameSearch && n in reg.filters && !reg.filters[n].section
    ensures r.Success? ==> |r.value| <= |filters|
    // `filter` keeps the order of the listed names.
    ensures r.Success? ==> Subsequence(r.value, filters)
    decreases |filters|
  {
    if |filters| == 0 then Success([])
    else
      var n := filters[0];
      var rest := NameSuggestions(reg, filters[1..]);
      assert forall i :: 1 <= i < |filters| ==> filters[1..][i - 1] == filters[i];
      if n == QuantityNameSearch then rest
      else if n !in reg.filters then Failure("TypeError")
      else if rest.Failure? then rest
      else if reg.filters[n].section then rest
      else Success([n] + rest.value)
  }

  /** The name-suggestion request, added when the requested quantities ask for it. */
  function WithNames(reg: Registry, filters: seq<string>, enums: map<string, SuggestionRequest>): Result<map<string, SuggestionRequest>, string> {
    match NameSuggestions(reg, filters)
    case Failure(e) => Failure(e)
    case Success(names) => Success(enums[QuantityNameSearch := SuggestionRequest(names, 2, QuantityNameSearch, None)])
  }

  /** The names `getStaticSuggestions` looks at: the requested ones, else every registered filter. */
  function Requested(reg: Registry, quantities: Option<seq<string>>): seq<string> {
    if quantities.Some? then quantities.value else reg.order
  }

  /** The quantity-name suggestion is requested. */
  predicate AsksNames(quantities: Option<seq<string>>) {
    quantities.Some? && QuantityNameSearch in quantities.value
  }

  /** Every enum among `filters` lists its values. */
  predicate EnumsListed(env: Env, filters: seq<string>) {
    forall i :: 0 <= i < |filters| && IsEnumQuantity(env, filters[i]) ==> ListsValues(env, filters[i])
  }

  /** `getStaticSuggestions(quantities)` as written: without `quantities` the
      filters default to every registered name, but `quantities.has(...)` is
      still called on `undefined` and throws. */
  function StaticSuggestionsAsWritten(env: Env, reg: Registry, quantities: Option<seq<string>>): (r: Result<map<string, SuggestionRequest>, string>)
    ensures quantities.None? ==> r.Failure?
    // With quantities given, the code as written and the corrected one agree.
    ensures quantities.Some? ==> r == StaticSuggestions(env, reg, quantities)
  {
    var filters := if quantities.Some? then quantities.value else reg.order;
    match EnumSuggestions(env, map[], filters)
    case Failure(e) => Failure(e)
    case Success(enums) =>
      if quantities.None? then Failure("TypeError")
      else if QuantityNameSearch in quantities.value then WithNames(reg, filters, enums)
      else Success(enums)
  }

  /** `getStaticSuggestions(quantities)` as evidently intended: without
      `quantities` there is no name suggestion. Enum quantities get their
      values with minimum length 1 or 2; the name suggestion lists the
      requested filters except the sentinel and sections, from two characters on. */
  function StaticSuggestions(env: Env, reg: Registry, quantities: Option<seq<string>>): (r: Result<map<string, SuggestionRequest>, string>)
    // It throws exactly on an enum without a value list, or on an unregistered
    // name when the name suggestion is asked for.
    ensures r.Success? <==>
              && EnumsListed(env, Requested(reg, quantities))
              && (AsksNames(quantities) ==> forall i :: 0 <= i < |quantities.value| && quantities.value[i] != QuantityNameSearch ==>
                                                       quantities.value[i] in reg.filters)
    // Every requested enum quantity gets a suggestion, and nothing else but the name suggestion does.
    ensures r.Success? ==> forall q :: q in r.value <==>
              (q in Requested(reg, quantities) && IsEnumQuantity(env, q)) || (AsksNames(quantities) && q == QuantityNameSearch)
    ensures r.Success? ==> forall q :: q in r.value && q != QuantityNameSearch ==>
              ListsValues(env, q) && r.value[q] == EnumRequest(env, q)
    ensures r.Success? ==> forall q :: q in r.value && q != QuantityNameSearch ==>
              (r.value[q].minLength == 1 <==> forall i :: 0 <= i < |r.value[q].options| ==> |r.value[q].options[i]| <= 2)
    ensures r.Success? && quantities.Some? && QuantityNameSearch in quantities.value ==>
              && QuantityNameSearch in r.value
              && r.value[QuantityNameSearch].minLength == 2
              && forall n :: n in r.value[QuantityNameSearch].options <==>
                   n in quantities.value && n != QuantityNameSearch && n in reg.filters && !reg.filters[n].section
  {
    var filters := Requested(reg, quantities);
    match EnumSuggestions(env, map[], filters)
    case Failure(e) => Failure(e)
    case Success(enums) =>
      if AsksNames(quantities) then WithNames(reg, filters, enums)
      else Success(enums)
  }

  /** Called without quantities, the function as written throws where the
      corrected one returns the enum suggestions of every registered filter. */
  lemma StaticSuggestionsWithoutQuantities(env: Env, reg: Registry)
    requires EnumsListed(env, reg.order)
    ensures StaticSuggestionsAsWritten(env, reg, None).Failure?
    ensures StaticSuggestions(env, reg, None).Success?
  {
  }

  // Parameter presets of the registry.

  function Terms(size: nat): Option<Aggs> {
    Some(Aggs(Some(TermsPreset(size, None))))
  }

  const TermQuantity := NoParams("").(aggs := Terms(5))
  const TermQuantityLarge := NoParams("").(aggs := Terms(10))
  const TermQuantityBool := NoParams("").(
    aggs := Some(Aggs(Some(TermsPreset(2, Some(["false", "true"]))))),
    options := Some([JsObject.Entry("false", "false"), JsObject.Entry("true", "true")]))
  const TermQuantityNonExclusive := NoParams("").(aggs := Terms(5), exclusive := Some(false))
  const TermQuantityAll := NoParams("").(aggs := Terms(5), exclusive := Some(false), multiple := Some(true), queryMode := Some("all"))
  const TermQuantityAllNonExclusive := TermQuantityNonExclusive.(queryMode := Some("all"))
  const NoAggQuantity := NoParams("")
  const NestedQuantity := NoParams("")
  const NoQueryQuantity := NoParams("").(multiple := Some(false), global := Some(true))
  const NumberHistogramQuantity := NoParams("").(multiple := Some(false), exclusive := Some(false))

  const PeriodicTableWidget := Widget("periodictable", "1/2", None, None, None, Layout(12, 8, 12, 8))

  /** The configuration of `results.material.elements`; `nElements` is the
      number of elements in the periodic-table data. */
  function ElementsConfig(nElements: nat): Params {
    NoParams("").(
      widget := Some(PeriodicTableWidget),
      aggs := Terms(nElements),
      value := Some(ElementsSetter),
      multiple := Some(true),
      exclusive := Some(false),
      queryMode := Some("all"))
  }

  /** The configuration passes both checks of the filter constructor. */
  predicate Accepted(p: Params) {
    !DefaultRefused(p) && !QueryModeRefused(p)
  }

  /** An accepted configuration constructs, whatever the name, definition and parent. */
  lemma AcceptedConstructs(env: Env, def: Option<Definition>, p: Params, name: string, parent: Option<Filter>)
    requires Accepted(p)
    ensures NewFilter(env, def, p.(name := name), parent).Success?
  {
  }

  /** Every preset and special configuration the registry uses is accepted. */
  lemma RegisteredConfigsAccepted(nElements: nat, s: string)
    ensures Accepted(TermQuantity) && Accepted(TermQuantityLarge) && Accepted(TermQuantityBool)
    ensures Accepted(TermQuantityNonExclusive) && Accepted(TermQuantityAll) && Accepted(TermQuantityAllNonExclusive)
    ensures Accepted(NoAggQuantity) && Accepted(NestedQuantity) && Accepted(NoQueryQuantity)
    ensures Accepted(NumberHistogramQuantity) && Accepted(NumberHistogramQuantity.(scale := Some(s)))
    ensures Accepted(ElementsConfig(nElements))
    ensures Accepted(NoAggQuantity.(labelText := Some(s), queryMode := Some("all")))
    ensures Accepted(NoParams("").(multiple := Some(true), queryMode := Some("all")))
    ensures Accepted(NoQueryQuantity.(default := Some(JString("visible")), description := Some(s)))
    ensures Accepted(NoQueryQuantity.(default := Some(JBool(true)), description := Some(s)))
    ensures Accepted(NoQueryQuantity.(default := Some(JBool(false)), description := Some(s)))
    ensures Accepted(NoParams("").(serializerExact := Some(s), serializerPretty := Some(s), deserializer := Some(s),
                                   multiple := Some(false), value := Some(IgnoreSetter)))
  {
  }

  const KLineDensity := "results.method.simulation.precision.k_line_density"

  /** `k_line_density` is registered twice; the second configuration (a
      labelled terms filter) has no effect on the stored histogram filter. */
  lemma KLineDensityFirstWins(env: Env, reg: Registry)
    requires KLineDensity !in reg.filters
    ensures var first := RegisterFilter(env, reg, KLineDensity, Some("precision"),
                                        NumberHistogramQuantity.(scale := Some("1/2")), None);
            && first.Ok?
            && var second := RegisterFilter(env, first.reg, KLineDensity, Some("precision"),
                                            TermQuantity.(labelText := Some("k-line Density")), None);
            && second.Ok?
            && second.reg.filters == first.reg.filters
            && second.reg.filters[KLineDensity].scale == "1/2"
            && !second.reg.filters[KLineDensity].multiple
            && second.reg.filters[KLineDensity].queryMode == None
  {
    var first := RegisterFilter(env, reg, KLineDensity, Some("precision"),
                                NumberHistogramQuantity.(scale := Some("1/2")), None);
    RegisterFilterFirstWins(env, first.reg, KLineDensity, Some("precision"),
                            TermQuantity.(labelText := Some("k-line Density")));
  }
}

=== FILE: summary.dfy ===
/** The data side of the filter summary: the chips shown for one filter
    value, the value each chip's delete button passes on, the operator
    shown between chips, and the chips of a nested section. */
module FilterSummary {
  import opened Wrappers
  import JsSet
  import JsObject
  import opened Filters

  /** The operator shown between two chips. */
  datatype Op = And | Or

  /** A filter value: a `Set`, an array, a range object or a single value. */
  datatype FilterValue<V> =
    | SetOf(members: seq<V>)
    | ArrayOf(items: seq<V>)
    | Range(lte: Option<V>, gte: Option<V>, lt: Option<V>, gt: Option<V>)
    | Single(v: V)

  /** What the summary reads from the registered filter. */
  datatype ChipInfo = ChipInfo(metaType: Option<DType>, customSerialization: bool, queryMode: Option<string>)

  /** A chip: its text, whether it is locked, and the value its delete
      button hands to `onDelete` (`None` standing for `undefined`). */
  datatype Chip<V> = Chip(text: string, locked: bool, onDelete: Option<FilterValue<V>>)

  /** A chip and the operator rendered after it. */
  datatype Fragment<V> = Fragment(chip: Chip<V>, op: Option<Op>)

  /** The operator of a filter's chips: locked chips are and-ed, otherwise
      the query mode decides, and an unknown mode shows none. */
  function OpFor(locked: bool, queryMode: Option<string>): Option<Op> {
    if locked then Some(And)
    else if queryMode == Some("any") then Some(Or)
    else if queryMode == Some("all") then Some(And)
    else None
  }

  /** Chips of these types show the quantity abbreviation before each value. */
  predicate LabelledType(t: Option<DType>) {
    t.Some? && (t.value == Boolean || t.value == Int || t.value == Float)
  }

  function ItemText(info: ChipInfo, caption: string, shown: string): string {
    if LabelledType(info.metaType) then caption + " = " + shown else shown
  }

  /** `[...xs].splice(i, 1)`: every element but the one at `i`, in order. */
  function WithoutIndex<V>(xs: seq<V>, i: nat): (r: seq<V>)
    requires i < |xs|
    ensures |r| == |xs| - 1
    ensures forall j :: 0 <= j < i ==> r[j] == xs[j]
    ensures forall j :: i <= j < |r| ==> r[j] == xs[j + 1]
  {
    xs[..i] + xs[i + 1..]
  }

  predicate Listing<V>(value: FilterValue<V>) {
    value.SetOf? || value.ArrayOf?
  }

  function Elements<V>(value: FilterValue<V>): seq<V>
    requires Listing(value)
  {
    if value.SetOf? then value.members else value.items
  }

  /** The value left when the chip of element `i` is deleted: the set
      without that member, or the array without that position. */
  function DeleteAt<V(==,!new)>(value: FilterValue<V>, i: nat): FilterValue<V>
    requires Listing(value) && i < |Elements(value)|
  {
    if value.SetOf? then SetOf(JsSet.Delete(value.members, value.members[i]))
    else ArrayOf(WithoutIndex(value.items, i))
  }

  function ItemChips<V(==,!new)>(info: ChipInfo, caption: string, value: FilterValue<V>, locked: bool, show: V -> string): (r: seq<Chip<V>>)
    requires Listing(value)
    ensures |r| == |Elements(value)|
  {
    var xs := Elements(value);
    seq(|xs|, i requires 0 <= i < |xs| => Chip(ItemText(info, caption, show(xs[i])), locked, Some(DeleteAt(value, i))))
  }

  /** A bound written after the caption, `" >= a"`, or nothing. */
  function After(op: string, b: Option<string>): string
  {
    if b.Some? then op + b.value else ""
  }

  /** A bound written before the caption, `"a <= "`, or nothing. */
  function Before(b: Option<string>, op: string): string
  {
    if b.Some? then b.value + op else ""
  }

  /** The text of a range chip from the displayed bounds; `None` when no
      bound is set. Lower bounds alone follow the caption, `caption >= a`,
      and so do upper bounds alone, `caption <= b`; with both, the lower
      bounds come before the caption, `a <= caption <= b`. */
  function RangeText(caption: string, lte: Option<string>, gte: Option<string>, lt: Option<string>, gt: Option<string>): (r: Option<string>)
    ensures r.None? <==> lte.None? && gte.None? && lt.None? && gt.None?
  {
    var lower := gte.Some? || gt.Some?;
    var upper := lte.Some? || lt.Some?;
    if !lower && !upper then None
    else if !upper then Some(caption + After(" >= ", gte) + After(" > ", gt))
    else if !lower then Some(caption + After(" <= ", lte) + After(" < ", lt))
    else Some(Before(gte, " <= ") + Before(gt, " < ") + caption + After(" <= ", lte) + After(" < ", lt))
  }

  /** With bounds on both sides, the lower ones precede the caption and the
      upper ones follow it, each in the order `>=`, `>` and `<=`, `<`. */
  lemma RangeTextBothSides(caption: string, lte: Option<string>, gte: Option<string>, lt: Option<string>, gt: Option<string>)
    requires (gte.Some? || gt.Some?) && (lte.Some? || lt.Some?)
    ensures RangeText(caption, lte, gte, lt, gt)
              == Some(Before(gte, " <= ") + Before(gt, " < ") + caption + After(" <= ", lte) + After(" < ", lt))
  {
  }

  /** Lower bounds alone, written out. */
  lemma RangeTextLower(caption: string, gte: Option<string>, gt: Option<string>)
    ensures gte.Some? && gt.None? ==> RangeText(caption, None, gte, None, gt) == Some(caption + " >= " + gte.value)
    ensures gte.None? && gt.Some? ==> RangeText(caption, None, gte, None, gt) == Some(caption + " > " + gt.value)
    ensures gte.Some? && gt.Some? ==> RangeText(caption, None, gte, None, gt) == Some(caption + " >= " + gte.value + " > " + gt.value)
  {
    if gte.Some? && gt.Some? {
      assert caption + After(" >= ", gte) + After(" > ", gt) == caption + " >= " + gte.value + " > " + gt.value;
    } else if gte.Some? {
      assert caption + After(" >= ", gte) + After(" > ", gt) == caption + " >= " + gte.value;
    } else if gt.Some? {
      assert caption + After(" >= ", gte) + After(" > ", gt) == caption + " > " + gt.value;
    }
  }

  /** Upper bounds alone, written out. */
  lemma RangeTextUpper(caption: string, lte: Option<string>, lt: Option<string>)
    ensures lte.Some? && lt.None? ==> RangeText(caption, lte, None, lt, None) == Some(caption + " <= " + lte.value)
    ensures lte.None? && lt.Some? ==> RangeText(caption, lte, None, lt, None) == Some(caption + " < " + lt.value)
    ensures lte.Some? && lt.Some? ==> RangeText(caption, lte, None, lt, None) == Some(caption + " <= " + lte.value + " < " + lt.value)
  {
    if lte.Some? && lt.Some? {
      assert caption + After(" <= ", lte) + After(" < ", lt) == caption + " <= " + lte.value + " < " + lt.value;
    } else if lte.Some? {
      assert caption + After(" <= ", lte) + After(" < ", lt) == caption + " <= " + lte.value;
    } else if lt.Some? {
      assert caption + After(" <= ", lte) + After(" < ", lt) == caption + " < " + lt.value;
    }
  }

  /** One bound on each side, written out: the lower one before the caption. */
  lemma RangeTextEachSide(caption: string, lower: string, upper: string)
    ensures RangeText(caption, Some(upper), Some(lower), None, None) == Some(lower + " <= " + caption + " <= " + upper)
    ensures RangeText(caption, None, Some(lower), Some(upper), None) == Some(lower + " <= " + caption + " < " + upper)
    ensures RangeText(caption, Some(upper), None, None, Some(lower)) == Some(lower + " < " + caption + " <= " + upper)
    ensures RangeText(caption, None, None, Some(upper), Some(lower)) == Some(lower + " < " + caption + " < " + upper)
  {
    assert Before(Some(lower), " <= ") + Before(None, " < ") + caption + After(" <= ", Some(upper)) + After(" < ", None)
        == lower + " <= " + caption + " <= " + upper;
    assert Before(Some(lower), " <= ") + Before(None, " < ") + caption + After(" <= ", None) + After(" < ", Some(upper))
        == lower + " <= " + caption + " < " + upper;
    assert Before(None, " <= ") + Before(Some(lower), " < ") + caption + After(" <= ", Some(upper)) + After(" < ", None)
        == lower + " < " + caption + " <= " + upper;
    assert Before(None, " <= ") + Before(Some(lower), " < ") + caption + After(" <= ", None) + After(" < ", Some(upper))
        == lower + " < " + caption + " < " + upper;
  }

  function Shown<V>(show: V -> string, b: Option<V>): (r: Option<string>)
    ensures r.Some? <==> b.Some?
  {
    if b.Some? then Some(show(b.value)) else None
  }

  /** The chips of a value before operators are attached. */
  function BareChips<V(==,!new)>(info: ChipInfo, caption: string, value: FilterValue<V>, locked: bool,
                                 show: V -> string, showWhole: FilterValue<V> -> string): seq<Chip<V>>
  {
    if info.customSerialization then [Chip(showWhole(value), locked, None)]
    else
      match value
      case SetOf(_) => ItemChips(info, caption, value, locked, show)
      case ArrayOf(_) => ItemChips(info, caption, value, locked, show)
      case Range(lte, gte, lt, gt) =>
        var text := RangeText(caption, Shown(show, lte), Shown(show, gte), Shown(show, lt), Shown(show, gt));
        if text.None? then [] else [Chip(text.value, locked, None)]
      case Single(_) => [Chip(caption + "=" + showWhole(value), locked, None)]
  }

  /** Attaches the operator to every chip but the last. */
  function WithOps<V>(chips: seq<Chip<V>>, op: Option<Op>): (r: seq<Fragment<V>>)
    ensures |r| == |chips|
    ensures forall i :: 0 <= i < |r| ==> r[i].chip == chips[i]
  {
    seq(|chips|, i requires 0 <= i < |chips| => Fragment(chips[i], if i != |chips| - 1 then op else None))
  }

  /** `createChips(name, label, filterValue, onDelete, locked)`, `caption` being the label.
      `show` is the serializer called with the units, on one element or one
      range bound; `showWhole` is the serializer called without units, on the
      whole value (a custom-serialized value or a single value). A serializer
      is assumed to map a missing bound to a missing text. */
  function CreateChips<V(==,!new)>(info: ChipInfo, caption: string, value: Option<FilterValue<V>>, locked: bool,
                                   show: V -> string, showWhole: FilterValue<V> -> string): (r: seq<Fragment<V>>)
    // A nil value has no chips.
    ensures value.None? ==> r == []
    // Custom serialization: one chip for the whole value, whose deletion clears it.
    ensures value.Some? && info.customSerialization ==>
              |r| == 1 && r[0].chip == Chip(showWhole(value.value), locked, None)
    // A range gives at most one chip, and one exactly when a bound is set.
    ensures value.Some? && !info.customSerialization && value.value.Range? ==>
              var v := value.value;
              |r| <= 1 && (|r| == 1 <==> v.lte.Some? || v.gte.Some? || v.lt.Some? || v.gt.Some?)
    // Its text is the range text of the bounds, each serialized with the units.
    ensures value.Some? && !info.customSerialization && value.value.Range? && |r| == 1 ==>
              var v := value.value;
              r[0].chip.text == RangeText(caption, Shown(show, v.lte), Shown(show, v.gte), Shown(show, v.lt), Shown(show, v.gt)).value
    // A single value gives one chip `label=value`, serialized without the units.
    ensures value.Some? && !info.customSerialization && value.value.Single? ==>
              |r| == 1 && r[0].chip.text == caption + "=" + showWhole(value.value)
    ensures forall i :: 0 <= i < |r| ==> r[i].chip.locked == locked
    // The operator follows every chip but the last.
    ensures |r| > 0 ==> r[|r| - 1].op == None
  {
    if value.None? then []
    else WithOps(BareChips(info, caption, value.value, locked, show, showWhole), OpFor(locked, info.queryMode))
  }

  /** The chips of a set or an array: one per element, in order, each of
      whose deletion hands on the value without that element. */
  lemma CreateChipsListing<V(!new)>(info: ChipInfo, caption: string, value: Option<FilterValue<V>>, locked: bool,
                                       show: V -> string, showWhole: FilterValue<V> -> string, r: seq<Fragment<V>>)
    requires r == CreateChips(info, caption, value, locked, show, showWhole)
    // A set or an array: one chip per element, in order.
    ensures value.Some? && !info.customSerialization && Listing(value.value) ==>
              |r| == |Elements(value.value)| &&
              forall i :: 0 <= i < |r| ==>
                r[i].chip.text == (if LabelledType(info.metaType) then caption + " = " else "") + show(Elements(value.value)[i])
    // Deleting the chip of a set member leaves the other members.
    ensures value.Some? && !info.customSerialization && value.value.SetOf? ==>
              forall i :: 0 <= i < |r| ==>
                r[i].chip.onDelete.Some? && r[i].chip.onDelete.value.SetOf? &&
                forall y :: y in r[i].chip.onDelete.value.members <==> y in value.value.members && y != value.value.members[i]
    // Deleting the chip of an array element removes that position only.
    ensures value.Some? && !info.customSerialization && value.value.ArrayOf? ==>
              forall i :: 0 <= i < |r| ==>
                r[i].chip.onDelete == Some(ArrayOf(value.value.items[..i] + value.value.items[i + 1..]))
  {
  }

  /** Which chips hand on a value, and the operator between chips. */
  lemma CreateChipsOps<V(!new)>(info: ChipInfo, caption: string, value: Option<FilterValue<V>>, locked: bool,
                                   show: V -> string, showWhole: FilterValue<V> -> string, r: seq<Fragment<V>>)
    requires r == CreateChips(info, caption, value, locked, show, showWhole)
    // Only set and array chips hand on a value; all others clear the filter.
    ensures forall i :: 0 <= i < |r| ==>
              r[i].chip.onDelete.Some? ==> !info.customSerialization && Listing(value.value)
    // Between two chips: 'or' for an unlocked filter querying any value, 'and' for a locked one or one querying all.
    ensures forall i :: 0 <= i < |r| - 1 ==>
              (r[i].op == Some(Or) <==> !locked && info.queryMode == Some("any")) &&
              (r[i].op == Some(And) <==> locked || info.queryMode == Some("all"))
  {
  }

  /** On a set, whose members are distinct, deleting the member at `i`
      removes exactly position `i`: set and array deletion agree. */
  lemma {:induction false} SetDeleteIsIndexDelete<V(!new)>(ms: seq<V>, i: nat)
    requires JsSet.Distinct(ms) && i < |ms|
    ensures JsSet.Delete(ms, ms[i]) == ms[..i] + ms[i + 1..]
  {
    if i == 0 {
      assert ms[i] !in ms[1..];
      assert ms[..0] + ms[1..] == ms[1..];
    } else {
      assert ms[0] != ms[i];
      assert ms[1..][i - 1] == ms[i];
      SetDeleteIsIndexDelete(ms[1..], i - 1);
      assert ms[1..][..i - 1] + ms[1..][i..] == ms[1..i] + ms[i + 1..];
      assert ms[..i] == [ms[0]] + ms[1..i];
    }
  }

  /** So the chip of a set member hands on the set with exactly one member fewer. */
  lemma SetChipDeleteRemovesOne<V(!new)>(info: ChipInfo, caption: string, ms: seq<V>, locked: bool,
                                            show: V -> string, showWhole: FilterValue<V> -> string, i: nat)
    requires JsSet.Distinct(ms) && !info.customSerialization && i < |ms|
    ensures var r := CreateChips(info, caption, Some(SetOf(ms)), locked, show, showWhole);
            |r| == |ms| && r[i].chip.onDelete == Some(SetOf(ms[..i] + ms[i + 1..]))
  {
    SetDeleteIsIndexDelete(ms, i);
  }

  /** The `onDelete` of a chip inside a nested section: a copy of the
      section with the key removed (`undefined`) or given the new value. */
  function DeleteInSection<V>(data: JsObject.Obj<FilterValue<V>>, key: string, newValue: Option<FilterValue<V>>): (r: JsObject.Obj<FilterValue<V>>)
    ensures JsObject.Get(r, key) == newValue
    ensures forall k :: k != key ==> JsObject.Get(r, k) == JsObject.Get(data, k)
    ensures newValue.None? ==> JsObject.Keys(r) == JsSet.Delete(JsObject.Keys(data), key)
    ensures newValue.Some? ==> JsObject.Keys(r) == JsSet.Add(JsObject.Keys(data), key)
    ensures JsObject.WellFormed(data) ==> JsObject.WellFormed(r)
  {
    if newValue.None? then JsObject.Delete(data, key) else JsObject.Put(data, key, newValue.value)
  }

  /** Deleting the chip of member `i` of a set-valued section entry leaves
      that entry without the member and every other entry, and the key
      order, as they were. */
  lemma SectionSetChipDelete<V(!new)>(info: ChipInfo, data: JsObject.Obj<FilterValue<V>>, key: string, ms: seq<V>,
                                         locked: bool, show: V -> string, showWhole: FilterValue<V> -> string, i: nat)
    requires JsObject.Get(data, key) == Some(SetOf(ms))
    requires !info.customSerialization && i < |ms|
    ensures var chips := CreateChips(info, key, JsObject.Get(data, key), locked, show, showWhole);
            var r := DeleteInSection(data, key, chips[i].chip.onDelete);
            && JsObject.Keys(r) == JsObject.Keys(data)
            && (forall k :: k != key ==> JsObject.Get(r, k) == JsObject.Get(data, k))
            && JsObject.Get(r, key).Some? && JsObject.Get(r, key).value.SetOf?
            && (forall y :: y in JsObject.Get(r, key).value.members <==> y in ms && y != ms[i])
  {
    var chips := CreateChips(info, key, JsObject.Get(data, key), locked, show, showWhole);
    assert chips[i].chip.onDelete.Some?;
    assert JsSet.Add(JsObject.Keys(data), key) == JsObject.Keys(data);
  }

  /** A piece of a section summary: a chip of one entry, or the and-separator between entries. */
  datatype Piece<V> = ChipPiece(key: string, fragment: Fragment<V>) | AndSeparator

  /** The number of and-separators among the pieces. */
  function Separators<V>(ps: seq<Piece<V>>): nat {
    if |ps| == 0 then 0 else (if ps[0].AndSeparator? then 1 else 0) + Separators(ps[1..])
  }

  predicate ChipsOnly<V>(ps: seq<Piece<V>>) {
    forall i :: 0 <= i < |ps| ==> ps[i].ChipPiece?
  }

  /** The runs of pieces between the and-separators, in order: one run more
      than there are separators. */
  function Groups<V>(ps: seq<Piece<V>>): (r: seq<seq<Piece<V>>>)
    ensures |r| == Separators(ps) + 1
  {
    if |ps| == 0 then [[]]
    else
      var rest := Groups(ps[1..]);
      if ps[0].AndSeparator? then [[]] + rest else [[ps[0]] + rest[0]] + rest[1..]
  }

  lemma {:induction false} GroupsOfChips<V>(a: seq<Piece<V>>)
    requires ChipsOnly(a)
    ensures Groups(a) == [a]
  {
    if |a| > 0 {
      GroupsOfChips(a[1..]);
      assert [a[0]] + a[1..] == a;
    }
  }

  lemma {:induction false} GroupsAfterSeparator<V>(a: seq<Piece<V>>, b: seq<Piece<V>>)
    requires ChipsOnly(a)
    ensures Groups(a + [AndSeparator] + b) == [a] + Groups(b)
  {
    if |a| == 0 {
      assert a + [AndSeparator] + b == [AndSeparator] + b;
      assert ([AndSeparator] + b)[1..] == b;
    } else {
      GroupsAfterSeparator(a[1..], b);
      assert (a + [AndSeparator] + b)[1..] == a[1..] + [AndSeparator] + b;
      assert [a[0]] + a[1..] == a;
    }
  }

  /** The fragments of one entry as pieces labelled with its key. */
  function EntryPieces<V>(key: string, fragments: seq<Fragment<V>>): (r: seq<Piece<V>>)
    ensures |r| == |fragments|
    ensures ChipsOnly(r)
  {
    if |fragments| == 0 then [] else [ChipPiece(key, fragments[0])] + EntryPieces(key, fragments[1..])
  }

  /** The name a section entry's filter is registered under: `${quantity}.${key}`. */
  function EntryName(quantity: string, key: string): string {
    quantity + "." + key
  }

  /** The chips of one section entry, labelled with its key. */
  function EntryChips<V(==,!new)>(info: ChipInfo, e: JsObject.Entry<FilterValue<V>>, locked: bool,
                                  show: V -> string, showWhole: FilterValue<V> -> string): (r: seq<Piece<V>>)
    ensures ChipsOnly(r)
  {
    EntryPieces(e.key, CreateChips(info, e.key, Some(e.val), locked, show, showWhole))
  }

  /** Every entry's chips are chip pieces. */
  ghost predicate ChipMaker<V(!new)>(chipsOf: (ChipInfo, JsObject.Entry<FilterValue<V>>) -> seq<Piece<V>>) {
    forall info, e :: ChipsOnly(chipsOf(info, e))
  }

  /** The loop of `addChipsForSection(data, locked)`, for any way `chipsOf`
      of making the chips of one registered entry: the chips of each entry
      and an and-separator after every entry but the last. `infoOf` is
      `filterData`; reading the entry of a name it lacks throws, reported
      here with that name. */
  function Section<V>(infoOf: string -> Option<ChipInfo>, quantity: string, entries: JsObject.Obj<FilterValue<V>>,
                      chipsOf: (ChipInfo, JsObject.Entry<FilterValue<V>>) -> seq<Piece<V>>): (r: Result<seq<Piece<V>>, string>)
    // It throws exactly when an entry's filter is not registered, at the first such entry.
    ensures r.Failure? <==> exists i :: 0 <= i < |entries| && infoOf(EntryName(quantity, entries[i].key)).None?
    ensures r.Failure? ==>
              exists i :: 0 <= i < |entries| && infoOf(EntryName(quantity, entries[i].key)).None?
                && r.error == EntryName(quantity, entries[i].key)
                && forall j :: 0 <= j < i ==> infoOf(EntryName(quantity, entries[j].key)).Some?
    ensures r.Success? && |entries| == 0 ==> r.value == []
    decreases |entries|
  {
    if |entries| == 0 then Success([])
    else
      var e := entries[0];
      var name := EntryName(quantity, e.key);
      assert forall i :: 1 <= i < |entries| ==> entries[1..][i - 1] == entries[i];
      if infoOf(name).None? then Failure(name)
      else
        var own := chipsOf(infoOf(name).value, e);
        if |entries| == 1 then Success(own)
        else
          match Section(infoOf, quantity, entries[1..], chipsOf)
          case Failure(err) => Failure(err)
          case Success(tail) => Success(own + [AndSeparator] + tail)
  }

  /** Split at its separators, a section gives back each entry's chips, in entry order. */
  lemma {:induction false} SectionGroups<V(!new)>(infoOf: string -> Option<ChipInfo>, quantity: string, entries: JsObject.Obj<FilterValue<V>>,
                                                 chipsOf: (ChipInfo, JsObject.Entry<FilterValue<V>>) -> seq<Piece<V>>)
    requires ChipMaker(chipsOf)
    requires |entries| > 0 && Section(infoOf, quantity, entries, chipsOf).Success?
    ensures var ps := Section(infoOf, quantity, entries, chipsOf).value;
            && |Groups(ps)| == |entries|
            && forall i :: 0 <= i < |entries| ==>
                 Groups(ps)[i] == chipsOf(infoOf(EntryName(quantity, entries[i].key)).value, entries[i])
    decreases |entries|
  {
    var ps := Section(infoOf, quantity, entries, chipsOf).value;
    var own := chipsOf(infoOf(EntryName(quantity, entries[0].key)).value, entries[0]);
    assert ChipsOnly(own);
    if |entries| == 1 {
      GroupsOfChips(own);
    } else {
      var tail := Section(infoOf, quantity, entries[1..], chipsOf).value;
      assert ps == own + [AndSeparator] + tail;
      SectionGroups(infoOf, quantity, entries[1..], chipsOf);
      GroupsAfterSeparator(own, tail);
      forall i | 1 <= i < |entries|
        ensures Groups(ps)[i] == chipsOf(infoOf(EntryName(quantity, entries[i].key)).value, entries[i])
      {
        assert entries[1..][i - 1] == entries[i];
        assert Groups(ps)[i] == Groups(tail)[i - 1];
      }
    }
  }

  /** `addChipsForSection(data, locked)` with `createChips` making each entry's chips. */
  function SectionPieces<V(==,!new)>(infoOf: string -> Option<ChipInfo>, quantity: string, entries: JsObject.Obj<FilterValue<V>>,
                                     locked: bool, show: V -> string, showWhole: FilterValue<V> -> string): (r: Result<seq<Piece<V>>, string>)
    // It throws exactly when an entry's filter is not registered, at the first such entry.
    ensures r.Failure? <==> exists i :: 0 <= i < |entries| && infoOf(EntryName(quantity, entries[i].key)).None?
    ensures r.Failure? ==>
              exists i :: 0 <= i < |entries| && infoOf(EntryName(quantity, entries[i].key)).None?
                && r.error == EntryName(quantity, entries[i].key)
                && forall j :: 0 <= j < i ==> infoOf(EntryName(quantity, entries[j].key)).Some?
    ensures r.Success? && |entries| == 0 ==> r.value == []
    // Otherwise one separator stands between consecutive entries, and split at
    // the separators it gives back each entry's chips in entry order.
    ensures r.Success? && |entries| > 0 ==> Separators(r.value) == |entries| - 1
    ensures r.Success? && |entries| > 0 ==>
              && |Groups(r.value)| == |entries|
              && forall i :: 0 <= i < |entries| ==>
                   Groups(r.value)[i] == EntryChips(infoOf(EntryName(quantity, entries[i].key)).value, entries[i], locked, show, showWhole)
  {
    var chipsOf := (info, e) => EntryChips(info, e, locked, show, showWhole);
    var r := Section(infoOf, quantity, entries, chipsOf);
    if r.Success? && |entries| > 0 then
      SectionGroups(infoOf, quantity, entries, chipsOf);
      r
    else r
  }
}

=== FILE: text.dfy ===
/** The JavaScript string operations the search components rely on:
    `String.prototype.trim`, `split` and `join` on a one-character
    separator, and the default ordering of `Array.prototype.sort`. */
module Text {

  /** The code points `String.prototype.trim` removes: ECMAScript's
      WhiteSpace and LineTerminator characters. */
  predicate IsWhitespace(c: char) {
    || c == '\t' || c == '\n' || c == '\U{B}' || c == '\U{C}' || c == '\r'
    || c == ' ' || c == '\U{A0}' || c == '\U{1680}'
    || ('\U{2000}' <= c <= '\U{200A}')
    || c == '\U{2028}' || c == '\U{2029}' || c == '\U{202F}' || c == '\U{205F}'
    || c == '\U{3000}' || c == '\U{FEFF}'
  }

  predicate AllWhitespace(s: string) {
    forall i :: 0 <= i < |s| ==> IsWhitespace(s[i])
  }

  /** Neither the first nor the last character is whitespace. */
  predicate Trimmed(s: string) {
    s == [] || (!IsWhitespace(s[0]) && !IsWhitespace(s[|s| - 1]))
  }

  /** `s` without its leading whitespace: a suffix of `s`, and what was cut is whitespace. */
  function TrimStart(s: string): (r: string)
    ensures |r| <= |s| && r == s[|s| - |r|..]
    ensures AllWhitespace(s[..|s| - |r|])
    ensures r == [] || !IsWhitespace(r[0])
  {
    if |s| > 0 && IsWhitespace(s[0]) then
      var r := TrimStart(s[1..]);
      assert s[..|s| - |r|] == [s[0]] + s[1..][..|s| - 1 - |r|];
      r
    else s
  }

  /** `s` without its trailing whitespace: a prefix of `s`, and what was cut is whitespace. */
  function TrimEnd(s: string): (r: string)
    ensures |r| <= |s| && r == s[..|r|]
    ensures AllWhitespace(s[|r|..])
    ensures r == [] || !IsWhitespace(r[|r| - 1])
  {
    if |s| > 0 && IsWhitespace(s[|s| - 1]) then
      var r := TrimEnd(s[..|s| - 1]);
      assert s[|r|..] == s[..|s| - 1][|r|..] + [s[|s| - 1]];
      r
    else s
  }

  /** `s.trim()`: a slice of `s` that neither starts nor ends with
      whitespace, and that is empty exactly when `s` is all whitespace. */
  function Trim(s: string): (r: string)
    ensures |r| <= |s|
    ensures Trimmed(r)
    ensures r == [] <==> AllWhitespace(s)
  {
    var t := TrimStart(s);
    var r := TrimEnd(t);
    assert r == [] ==> AllWhitespace(s) by {
      if r == [] {
        assert s == s[..|s| - |t|] + t;
        assert t == t[|r|..];
      }
    }
    r
  }

  /** `s.trim()` is `s` with whitespace cut from both ends and nothing else:
      a slice of `s` with only whitespace before and after it. */
  lemma TrimSlice(s: string)
    ensures exists i, j :: 0 <= i <= j <= |s| && Trim(s) == s[i..j] && AllWhitespace(s[..i]) && AllWhitespace(s[j..])
  {
    var t := TrimStart(s);
    var r := TrimEnd(t);
    var i := |s| - |t|;
    assert Trim(s) == r == s[i..i + |r|];
    assert s[i + |r|..] == t[|r|..];
  }

  /** Trimming a string that has no surrounding whitespace leaves it unchanged. */
  lemma TrimOfTrimmed(s: string)
    requires Trimmed(s)
    ensures Trim(s) == s
  {
  }

  /** `s.split(sep)`: never empty, and no part contains the separator. */
  function Split(s: string, sep: char): (parts: seq<string>)
    ensures |parts| >= 1
    ensures forall i :: 0 <= i < |parts| ==> sep !in parts[i]
  {
    if |s| == 0 then [""]
    else
      var rest := Split(s[1..], sep);
      if s[0] == sep then [""] + rest else [[s[0]] + rest[0]] + rest[1..]
  }

  /** `parts.join(sep)`. */
  function Join(parts: seq<string>, sep: char): string
  {
    if |parts| == 0 then ""
    else if |parts| == 1 then parts[0]
    else parts[0] + [sep] + Join(parts[1..], sep)
  }

  /** Joining the parts of a split gives back the original string. */
  lemma {:induction false} JoinSplit(s: string, sep: char)
    ensures Join(Split(s, sep), sep) == s
  {
    if |s| > 0 {
      JoinSplit(s[1..], sep);
      var rest := Split(s[1..], sep);
      if s[0] == sep {
        assert Split(s, sep)[1..] == rest;
      } else {
        var parts := Split(s, sep);
        assert parts[1..] == rest[1..];
        if |rest| > 1 {
          assert Join(rest, sep) == rest[0] + [sep] + Join(rest[1..], sep);
        }
        assert s == [s[0]] + s[1..];
      }
    }
  }

  /** A string without the separator splits into itself alone. */
  lemma {:induction false} SplitWithoutSeparator(s: string, sep: char)
    requires sep !in s
    ensures Split(s, sep) == [s]
  {
    if |s| > 0 {
      SplitWithoutSeparator(s[1..], sep);
      assert s == [s[0]] + s[1..];
    }
  }

  /** Splitting at a separator splits the two sides independently. */
  lemma {:induction false} SplitAround(a: string, b: string, sep: char)
    ensures Split(a + [sep] + b, sep) == Split(a, sep) + Split(b, sep)
  {
    var s := a + [sep] + b;
    if |a| == 0 {
      assert s[1..] == b;
    } else {
      assert s[1..] == a[1..] + [sep] + b;
      SplitAround(a[1..], b, sep);
    }
  }

  /** Splitting a join of separator-free parts gives back the parts. */
  lemma {:induction false} SplitJoin(parts: seq<string>, sep: char)
    requires |parts| >= 1
    requires forall i :: 0 <= i < |parts| ==> sep !in parts[i]
    ensures Split(Join(parts, sep), sep) == parts
  {
    SplitWithoutSeparator(parts[0], sep);
    if |parts| > 1 {
      SplitJoin(parts[1..], sep);
      SplitAround(parts[0], Join(parts[1..], sep), sep);
      assert parts == [parts[0]] + parts[1..];
    }
  }

  /** `a` sorts no later than `b` under the default comparison of
      `Array.prototype.sort`: lexicographic by character, a prefix first. */
  predicate NoLater(a: string, b: string) {
    |a| == 0 || (|b| > 0 && (a[0] < b[0] || (a[0] == b[0] && NoLater(a[1..], b[1..]))))
  }

  lemma NoLaterTotal(a: string, b: string)
    ensures NoLater(a, b) || NoLater(b, a)
  {
  }

  lemma NoLaterTransitive(a: string, b: string, c: string)
    requires NoLater(a, b) && NoLater(b, c)
    ensures NoLater(a, c)
  {
  }

  lemma NoLaterAntisymmetric(a: string, b: string)
    requires NoLater(a, b) && NoLater(b, a)
    ensures a == b
  {
  }

  predicate Sorted(s: seq<string>) {
    forall i, j :: 0 <= i < j < |s| ==> NoLater(s[i], s[j])
  }

  /** Inserts `x` into a sorted sequence, keeping it sorted. */
  function Insert(x: string, s: seq<string>): (r: seq<string>)
    requires Sorted(s)
    ensures Sorted(r)
    ensures multiset(r) == multiset(s) + multiset{x}
  {
    if |s| == 0 then [x]
    else if NoLater(x, s[0]) then
      InsertFront(x, s);
      [x] + s
    else
      NoLaterTotal(x, s[0]);
      var t := Insert(x, s[1..]);
      InsertBehind(x, s, t);
      assert s == [s[0]] + s[1..];
      [s[0]] + t
  }

  lemma InsertFront(x: string, s: seq<string>)
    requires Sorted(s) && |s| > 0 && NoLater(x, s[0])
    ensures Sorted([x] + s)
  {
    forall j | 0 <= j < |s|
      ensures NoLater(x, s[j])
    {
      if j > 0 {
        NoLaterTransitive(x, s[0], s[j]);
      }
    }
  }

  lemma InsertBehind(x: string, s: seq<string>, t: seq<string>)
    requires Sorted(s) && |s| > 0 && NoLater(s[0], x)
    requires Sorted(t) && multiset(t) == multiset(s[1..]) + multiset{x}
    ensures Sorted([s[0]] + t)
  {
    forall j | 0 <= j < |t|
      ensures NoLater(s[0], t[j])
    {
      assert t[j] in multiset(t);
      if t[j] != x {
        assert t[j] in multiset(s[1..]);
        var k :| 0 <= k < |s[1..]| && s[1..][k] == t[j];
        assert s[k + 1] == t[j];
      }
    }
  }

  /** `[...s].sort()`: a sorted permutation of `s`. */
  function Sort(s: seq<string>): (r: seq<string>)
    ensures Sorted(r)
    ensures multiset(r) == multiset(s)
  {
    if |s| == 0 then []
    else
      assert s == [s[0]] + s[1..];
      Insert(s[0], Sort(s[1..]))
  }
}

=== FILE: wrappers.dfy ===
/** Option and Result, used for JavaScript's `undefined` and for thrown errors. */
module Wrappers {

  /** `None` stands for a value that is `undefined` (or missing from an object). */
  datatype Option<+T> = None | Some(value: T) {

    /** The wrapped value, or `default` when there is none. */
    function GetOr(default: T): T {
      match this
      case Some(v) => v
      case None => default
    }
  }

  /** `Failure` stands for an exception thrown by the source. */
  datatype Result<+T, +E> = Success(value: T) | Failure(error: E)
}
